=== FILE: README.md ===
# psico-app-front: session and role-based access, modelled in Dafny

This project models the client-side session and access-control logic of the
psico-app Angular front end, plus the small pure helpers of its feature components:

- **TokenService**: the session token, kept in memory and mirrored into `localStorage`
  under `psico_app_token` when running in a browser, seeded from there at start-up.
- **AuthService**: a successful authentication stores `response.token`; `logout` clears it.
- **RoleGuard**: the three-way decision (allow, go to `/login`, go to `/forbidden`)
  taken before entering a guarded route, from whether a session is active and which
  role it claims.
- **The route table** of `AppRoutingModule` with each guarded route's role list, and a
  small model of how the router picks a route, so that properties crossing files can
  be stated: every role's landing page after login admits that role, a session with no
  role sees only the open pages, and so on.
- **LoginComponent**: landing page per role, `ngOnInit` and `submit`.
- **RegisterComponent**: role parameter handling, role codes, the password-match
  validator, and the payload sent for each kind of account.
- **UsersComponent**: the display fallbacks for user records and `decorateUsers`.
- **ReservationsComponent**: `fromApiDate` (`dd/MM/yyyy` to `yyyy-MM-dd`), `edit`,
  and what `submit` and `remove` send.

Everything is a pure function over immutable datatypes. State changes are functions
from the old state to the new one, and effects on the outside world are data: a
navigation target, a request, an error message. `null` and `undefined` are both
`None` wherever the code tests them with `??`, `?.` or truthiness, which treat the two
alike. The one place the code tells them apart is `displayActive`. It compares the
result of `isActive ?? active ?? enabled` with `=== undefined`, and a nullish chain
yields its last operand as it is, so `enabled` is three-valued there (absent, `null`
or a boolean).
JavaScript truthiness of strings is `Wrappers.Truthy` (present and non-empty), and of
ids it is `Reservations.TruthyId` (present and non-zero).

Inputs standing in for code or environment outside the model:

- `isLoggedIn()` and `getRole()` are a `bool` and an `Option<Role>`. After a login,
  the role comes from a function `roleOf` of the new token store.
- The outcome of each HTTP call is an input.
- So are `window.confirm`, whether the code runs in a browser, the contents of
  `localStorage`, Angular's `email` validator and `formatDate` (behind `toApiDate`).

Files: `wrappers.dfy` (optional values, `??` chains), `strings.dfy` (`trim`, `split`,
`join`, `padStart`), `roles.dfy`, `role_guard.dfy`, `token_service.dfy`,
`auth_service.dfy`, `app_routing.dfy`, `login.dfy`, `register.dfy`, `users.dfy`,
`reservations.dfy`.

## Model

| member | source | states |
|---|---|---|
| RoleGuard.CanActivate | src/app/core/guards/role.guard.ts:11-26 | The result is always allow, `/login` or `/forbidden`. With no session it is `/login`. With a session it is allow exactly when the route's role set is empty or contains the claimed role, and `/forbidden` otherwise. |
| RoleGuard.LoggedOutGoesToLogin | src/app/core/guards/role.guard.ts:12-16 | With no session the outcome is `/login`, whatever the roles and the claimed role. |
| RoleGuard.EmptyRolesIgnoreRole | src/app/core/guards/role.guard.ts:18-22 | With no role data, or an empty role list, every active session is admitted, whatever role it claims or lacks. |
| RoleGuard.NoRoleForbidden | src/app/core/guards/role.guard.ts:19-25 | An active session claiming no role is sent to `/forbidden` on any route with a non-empty role list. |
| RoleGuard.ListedRoleDecides | src/app/core/guards/role.guard.ts:21-25 | On a route with roles, a claimed role is admitted if listed and sent to `/forbidden` if not. |
| RoleGuard.OrderIrrelevant | src/app/core/guards/role.guard.ts:21 | Two role lists with the same members give the same decision. |
| RoleGuard.WideningKeepsAccess | src/app/core/guards/role.guard.ts:21 | If a non-empty list A admits a session, every list containing A's roles admits it too. |
| TokenService.Init | src/app/core/services/token.service.ts:5-8 | Construction writes nothing to storage. In a browser the token equals the stored entry (absent gives null). Outside a browser the token is null. |
| TokenService.GetToken | src/app/core/services/token.service.ts:12-14 | While memory and storage are mirrored in a browser, the token read is the stored entry, or null if absent. |
| TokenService.HasToken | src/app/core/services/token.service.ts:16-18 | `hasToken()` holds iff the token is present and non-empty, in every state. In a mirrored browser state, `hasToken()` holds iff storage holds a non-empty entry under `psico_app_token`. |
| TokenService.SetToken | src/app/core/services/token.service.ts:20-25 | Afterwards the token is `t`. `hasToken()` holds iff `t` is non-empty. In a browser the entry holds `t`; outside one, storage is untouched. No other key changes, and storage mirrors memory. |
| TokenService.ClearToken | src/app/core/services/token.service.ts:27-32 | Afterwards the token is null and `hasToken()` is false. In a browser the entry is removed; outside one, storage is untouched. No other key changes, and storage mirrors memory. |
| TokenService.ClearIdempotent | src/app/core/services/token.service.ts:27-32 | Clearing twice equals clearing once. |
| TokenService.LastSetWins | src/app/core/services/token.service.ts:20-25 | Of two writes, the later one fully decides the state, in memory and in storage. |
| TokenService.ClearErasesSet | src/app/core/services/token.service.ts:20-32 | A write followed by a clear equals the clear alone. |
| TokenService.MirroredForever | src/app/core/services/token.service.ts:7-32 | From construction on, after any sequence of `setToken`/`clearToken` calls, the stored entry in a browser equals the in-memory token. |
| TokenService.RunOutsideBrowser | src/app/core/services/token.service.ts:22-31 | Outside a browser no sequence of calls changes storage. |
| TokenService.ReloadRestoresToken | src/app/core/services/token.service.ts:7-8 | A service constructed on the storage another service left behind starts with that service's token. |
| AuthService.Authenticate | src/app/core/services/auth.service.ts:15-19 | On success the store afterwards holds exactly `response.token`, `hasToken()` iff it is non-empty, and storage mirrors it. No other storage key changes, and outside a browser storage is untouched. On error the store is unchanged. |
| AuthService.OnlyTokenRead | src/app/core/services/auth.service.ts:17 | Two responses with the same `token` leave the same state; no other response field matters. |
| AuthService.LaterLoginWins | src/app/core/services/auth.service.ts:16-18 | Of two completed logins, the later one decides the session. |
| AuthService.Logout | src/app/core/services/auth.service.ts:21-23 | Afterwards `hasToken()` is false and the token is null. No other storage key changes, outside a browser storage is untouched, and storage mirrors memory. |
| AuthService.LogoutUndoesLogin | src/app/core/services/auth.service.ts:21-23 | Logging out after any login outcome gives the same state as logging out before it. |
| AppRouting.Navigate | src/app/app-routing.module.ts:8-86 | The router either renders the requested URL or sends the user to `/login` or `/forbidden`, never anywhere else. `/forbidden` is only reached with an active session, and without a session every redirect goes to `/login`. |
| AppRouting.FirstMatch | src/app/app-routing.module.ts:8-86 | The router's choice is the first route in table order that matches; no route is chosen iff none matches. |
| AppRouting.SomeRouteMatches | src/app/app-routing.module.ts:85 | Some route always matches, because `**` matches every URL. |
| AppRouting.GuardedRoutesHaveRoles | src/app/app-routing.module.ts:28-79 | Every guarded route carries a non-empty role list. |
| AppRouting.UnguardedRoutes | src/app/app-routing.module.ts:9-83 | The only unguarded, non-redirect routes are `login`, `register` and `forbidden`. |
| AppRouting.OpenPages | src/app/app-routing.module.ts:9-27 | `/login`, `/register`, `/register/:role` and `/forbidden` render for anyone, logged in or not, with any role. |
| AppRouting.UnknownGoesToLogin | src/app/app-routing.module.ts:84-85 | The empty path and every path whose first segment is not in the table redirect to `login`. |
| AppRouting.UnknownAdminChildGoesToLogin | src/app/app-routing.module.ts:28-59 | An `/admin/x` with `x` not a listed child matches nothing but `**` and redirects to `login`. |
| AppRouting.AdminSubtreeRequiresAdmin | src/app/app-routing.module.ts:28-59 | `/admin` itself (the `''` child) and each of its five named children go to `/login` without a session. With one, they render iff the role is `ADMIN`, else go to `/forbidden`. |
| AppRouting.TherapistRequiresTerapeuta | src/app/app-routing.module.ts:60-66 | `/therapist` admits exactly `TERAPEUTA`. |
| AppRouting.PatientRequiresPaciente | src/app/app-routing.module.ts:67-73 | `/patient` admits exactly `PACIENTE`. |
| AppRouting.UserRequiresUsuarioOrAdmin | src/app/app-routing.module.ts:74-79 | `/user` admits exactly `USUARIO` and `ADMIN`. |
| AppRouting.RenderedRoute | src/app/app-routing.module.ts:8-86 | A rendered URL is one of the table's named routes, and if that route is guarded, the guard allowed the session. |
| AppRouting.LoggedOutSeesOnlyOpenPages | src/app/app-routing.module.ts:28-79 | Without a session, only `login`, `register` and `forbidden` pages render. |
| AppRouting.RoleLessSeesOnlyOpenPages | src/app/app-routing.module.ts:28-79 | An active session that claims no role renders only `login`, `register` and `forbidden` pages. |
| AppRouting.AdminEntersAdminAndUser | src/app/app-routing.module.ts:28-79 | `ADMIN` renders both `/admin` and `/user`. |
| AppRouting.UsuarioEntersOnlyUser | src/app/app-routing.module.ts:74-79 | Among guarded pages, `USUARIO` renders only `/user`. |
| AppRouting.LandingAdmitsRole | src/app/features/auth/login.component.ts:56-74 | For every role, the page `redirectByRole` sends it to renders for an active session claiming that role. |
| Login.RedirectByRole | src/app/features/auth/login.component.ts:56-74 | ADMIN goes to `/admin`, TERAPEUTA to `/therapist`, PACIENTE to `/patient` and USUARIO to `/user`. No role goes to `/login`. Each as an iff, so no two cases share a target. |
| Login.RedirectInjective | src/app/features/auth/login.component.ts:56-74 | Distinct roles, or a role and no role, land on distinct pages. |
| Login.OnInit | src/app/features/auth/login.component.ts:28-32 | It navigates iff a session is active, and then to the claimed role's landing page. |
| AppRouting.OnInitTargetRenders | src/app/features/auth/login.component.ts:28-32 | Wherever `ngOnInit` sends an active session, that page renders for it: a role's landing page admits the role, and a role-less session goes to the open login page. |
| Login.EmptyFormSendsNothing | src/app/features/auth/login.component.ts:23-38 | Submitting the form as first built, with both fields empty, only marks it touched: no request, no state change, no navigation. |
| Login.Submit | src/app/features/auth/login.component.ts:34-54 | The form is invalid iff username or password is empty, per the `required` validators at lines 23-26. An invalid form is only marked touched: no request, no state change, no navigation. Otherwise a request is made and loading ends false. On success the error is cleared, the store holds the response token, and navigation uses the role read from the new store. On error the message is set, the store is unchanged and there is no navigation. |
| Login.FailedLoginKeepsSession | src/app/features/auth/login.component.ts:48-52 | A failed login leaves `hasToken()` as it was. |
| Roles.Name | src/app/core/models/user.model.ts:1 | Every role's wire name is non-empty, hence truthy. |
| Roles.NameInjective | src/app/core/models/user.model.ts:1 | Two roles have the same name iff they are the same role. |
| Register.ParseParam | src/app/features/auth/register/register.component.ts:195 | Exactly `therapist`, `user` and `patient` are accepted, each as its own role. |
| Register.RoleCode | src/app/features/auth/register/register.component.ts:124-125 | therapist→TERAPEUTA, user→USUARIO, patient→PACIENTE, each as an iff. Registration never yields ADMIN. |
| Register.HandleParams | src/app/features/auth/register/register.component.ts:193-203 | A missing or unknown role navigates to `/register` and changes nothing. A known one becomes the current role, resets the form's `professionalCard` to false and `specialty` to `''`, and does not navigate. All other form controls are left as they were. |
| Register.ShowProfessionalCard | src/app/features/auth/register/register.component.ts:99-101 | The card shows iff the current role registers as TERAPEUTA. |
| Register.ShowCardAfterParams | src/app/features/auth/register/register.component.ts:193-203 | After a valid parameter, the card shows iff the parameter was `therapist`. |
| Register.PasswordMatch | src/app/features/auth/register/register.component.ts:205-214 | No error while either value is empty. Otherwise no error iff the two are equal. The only error is `passwordMismatch`. |
| Register.PasswordMatchSymmetric | src/app/features/auth/register/register.component.ts:205-214 | Swapping password and confirmation gives the same verdict. |
| Register.FormValid | src/app/features/auth/register/register.component.ts:72-88 | A form passing its validators has every required control filled in, a valid e-mail, and equal password and confirmation of at least six characters. Conversely, every such form is valid. |
| Register.InitialStateNotSubmittable | src/app/features/auth/register/register.component.ts:64-84 | The page opens on the patient role, whose form hides the professional card. The form as first built (empty controls, `docType` `'CC'`) sends no request. |
| Register.BuildBase | src/app/features/auth/register/register.component.ts:122-138 | `username`, `firstName`, `lastName`, `document`, `email` and `telephone` are the trimmed form values, and `phoneNumber` is the trimmed `telephone`. `fullName` is the trimmed `"first last"`, so it is empty iff both names are blank. All of these have no whitespace at either end. `docType` and `password` are copied verbatim, and `role` is the role code. |
| Register.SpecialtyField | src/app/features/auth/register/register.component.ts:151 | The specialty is omitted iff it is blank. Otherwise it is its trimmed, non-empty text. |
| Register.TherapistParamClearsExtras | src/app/features/auth/register/register.component.ts:193-203 | After `/register/therapist` is handled, a valid form submits a therapist request with `professionalCard` false and no specialty, whatever those controls held before. The rest of the payload is built from the form as it was. |
| Register.Submit | src/app/features/auth/register/register.component.ts:103-161 | No request iff the form is invalid. Otherwise the request goes to the current role's endpoint (therapist, user or patient), carries the built payload, and only the therapist request has `professionalCard` and `specialty`. |
| Register.EndpointMatchesRoleCode | src/app/features/auth/register/register.component.ts:122-161 | The endpoint chosen and the payload's role code always agree. |
| Strings.Trim | src/app/features/auth/register/register.component.ts:122 | `trim` returns a slice of its input with only whitespace around it and none at its ends. It is empty iff the input is all whitespace. |
| Strings.TrimIdempotent | src/app/features/users/users.component.ts:155-156 | Trimming an already trimmed name changes nothing. |
| Strings.Join | src/app/features/users/users.component.ts:170 | `join` of no pieces is `""`. Otherwise the result starts with the first piece, and joining separator-free pieces puts exactly one separator between neighbours (count = pieces − 1). |
| Strings.Split | src/app/features/reservations/reservations.component.ts:175 | `split('/')` yields at least one piece, none containing `/`, and joining them with `/` gives back the input. |
| Strings.SplitJoin | src/app/features/reservations/reservations.component.ts:175 | Splitting a join of one or more separator-free pieces gives back exactly those pieces. No pieces join to `""`, which splits to `[""]`. |
| Strings.SplitCount | src/app/features/reservations/reservations.component.ts:175 | The number of pieces is one more than the number of separators. |
| Strings.PadStart | src/app/features/reservations/reservations.component.ts:176 | `padStart(2, '0')` never truncates. The result has length max(len, 2), ends with the input and is `'0'` before it. |
| Reservations.FromApiDate | src/app/features/reservations/reservations.component.ts:174-177 | It fails (throws) iff the date has no `/`. |
| Reservations.Pad2 | src/app/features/reservations/reservations.component.ts:176 | Day and month of length 2 or more are copied unchanged. Shorter ones are left-padded with `'0'` to length 2. |
| Reservations.FromApiDateParts | src/app/features/reservations/reservations.component.ts:174-177 | `d/m/y` (no `/` inside the parts) becomes `y-mm-dd`: the year verbatim, month and day padded. |
| Reservations.FromApiDateLength | src/app/features/reservations/reservations.component.ts:176 | The output length is len(y) + len(padded m) + len(padded d) + 2. |
| Reservations.FromApiDateDashes | src/app/features/reservations/reservations.component.ts:176 | With no `-` in the parts, the output has exactly two `-`, and splitting it on `-` gives back the year, padded month and padded day. |
| Reservations.PadAddsOnlyZeros | src/app/features/reservations/reservations.component.ts:176 | Padding introduces no character other than `'0'`. |
| Reservations.Edit | src/app/features/reservations/reservations.component.ts:85-94 | Copies `id`. Facility and therapist are `fk… ?? …Dto?.id`. The date is `''` iff the reservation has none; a present date becomes `fromApiDate` of it. It fails iff a date is present and has no `/`. |
| Reservations.ZeroReferenceIsIncomplete | src/app/features/reservations/reservations.component.ts:96-106 | A facility of 0 passes `required` but is falsy, so submitting gives the "complete all fields" error and no request. The untouched initial form is only marked touched. |
| Reservations.EditedFormIsValid | src/app/features/reservations/reservations.component.ts:85-94 | Editing a reservation that names its facility and therapist and has a `dd/MM/yyyy` date fills in a form that passes the `required` validators of lines 32-37. |
| Reservations.Submit | src/app/features/reservations/reservations.component.ts:96-121 | A form failing `required` (a facility or therapist missing, or an empty date; 0 passes, per lines 32-37) is only marked touched. A zero facility or therapist gives the "complete all fields" error and no request. Otherwise the payload carries the form's values and the converted date. It is an update iff the id is truthy, else a create. |
| Reservations.ZeroIdCreates | src/app/features/reservations/reservations.component.ts:119-121 | An id of 0 is falsy, so it creates, while the payload keeps `id: 0`. |
| Reservations.Remove | src/app/features/reservations/reservations.component.ts:138-146 | A delete is sent iff the reservation has a truthy id and the user confirms, and then for that id. |
| Users.DisplayName | src/app/features/users/users.component.ts:152-158 | The result is never empty. A present, non-blank `fullName` gives its trimmed text. A missing `fullName` with a non-blank name pair gives the trimmed `"first last"`. Otherwise it is the non-empty `username`, else `Sin nombre`. A present but blank `fullName` skips the name pair. |
| Users.NamesBlank | src/app/features/users/users.component.ts:153-155 | The name fallback is blank iff first and last name are each blank or absent. |
| Users.DisplayDocument | src/app/features/users/users.component.ts:160-171 | A dash when neither document type nor number is truthy. Both truthy give "type number", one truthy gives that one alone. Never empty. |
| Users.DisplayEmail | src/app/features/users/users.component.ts:173-175 | The first present of `email`, `mail`, `emailAddress`, else a dash. |
| Users.DisplayPhone | src/app/features/users/users.component.ts:177-179 | The first present of `telephone`, `phone`, `mobile`, else a dash. |
| Users.AliasChainsPickFirstPresent | src/app/features/users/users.component.ts:173-179 | The email and phone chains agree with the order-based definition of "first present value". |
| Wrappers.FirstPresent | src/app/features/users/users.component.ts:174 | The first present value of a `??` chain: absent iff all are absent, else an element with none present before it. |
| Wrappers.OrChainIsFirstPresent | src/app/features/users/users.component.ts:174 | `a ?? b ?? c` is the first present value of `[a, b, c]`. |
| Users.DisplayRole | src/app/features/users/users.component.ts:181-183 | The record's role if present, else the fallback role's name, else a dash. |
| Users.DisplayActive | src/app/features/users/users.component.ts:185-191 | A dash iff `isActive` and `active` are absent and `enabled` is `undefined`. The first of `isActive` and `active` that is present decides `Sí` or `No`. Failing both, a boolean `enabled` decides, and a `null` one gives `No`. |
| Users.TrackByUser | src/app/features/users/users.component.ts:193-195 | The key is `id`, else `username`, else `email`, else the index. |
| Users.TrackingKeyIgnoresPosition | src/app/features/users/users.component.ts:193-195 | A record with an id, username or email gets the same key at every index. |
| Users.TruthyParts | src/app/features/users/users.component.ts:170 | `filter(Boolean)` keeps only non-empty strings; nothing is kept iff no entry is truthy. |
| Users.TruthyPartsInOrder | src/app/features/users/users.component.ts:170 | The kept strings are the values of the truthy entries, each kept once and in their original order. Each is matched to its position by an increasing list that holds every truthy position. |
| Users.DecorateUsers | src/app/features/users/users.component.ts:197-202 | Length and order are kept. Each role becomes the record's own role if present, else the fallback. Every other field is unchanged. |
| Users.DecorationKeepsOtherColumns | src/app/features/users/users.component.ts:197-202 | Decoration changes only the role column. Active, name, document, e-mail and phone show the same text for a decorated record as for the original. |
| Users.DecorateIdempotent | src/app/features/users/users.component.ts:197-202 | Decorating twice with the same fallback equals decorating once. |
| Users.DecoratedRoleDisplay | src/app/features/users/users.component.ts:197-202 | A decorated record shows, without a fallback, the same role the original shows with that fallback. |
| Users.DecorateWithoutFallback | src/app/features/users/users.component.ts:197-202 | Without a fallback role the list is returned unchanged. |

## Left out

- Token decoding behind `isLoggedIn()` and `getRole()`: it is not in the service's source, so both are inputs. No base64url or JSON decoding is modelled.
- `authGuard`, which runs before `RoleGuard` on every guarded route: its source is not part of this model. `AppRouting.Navigate` applies `RoleGuard` alone.
- `app.routes.ts` and `app.routes.server.ts`: the first is an alternative table guarded only by `authGuard`; the second only sets server render modes.
- The Angular router beyond the shapes this table uses (query strings, matrix parameters, lazy loading, relative navigation). URLs are lists of path segments.
- HTTP: the wrapper services (building, facility, therapist, reservation, user, registration), request URLs and bodies on the wire. Each call's outcome is an input.
- Asynchrony: signals, RxJS subscriptions and their lifecycles. Each operation is modelled by the state after its request, if any, has completed. `Login.Submit` does not expose the transient `loading = true` state.
- `AuthService.Authenticate`: the response is taken to carry a string `token`, as its declared type says; a backend omitting it is not modelled.
- `Register.Submit`: what happens after the response (feedback message, form reset, error message) is not modelled; only the request is.
- `Reservations.Submit`: the response handling (feedback, form reset, reload) is not modelled. `toApiDate`, which calls Angular's locale-dependent `formatDate`, is a function parameter and is taken as total. `formatDate` throws on a string it cannot parse, such as the `undefined-MM-dd` that `fromApiDate` builds from a two-part date. Where the source throws there, `Reservations.Submit` sends a request.
- `Reservations.Remove`: `window.confirm` is an input, and the response handling is not modelled. `trackById`, which returns `item.id`, and `window.scrollTo` in `edit` are left out.
- `Register.FormValid`: Angular's `email` validator is an input. `minLength(6)` counts characters, not UTF-16 code units.
- `Strings.PadStart`, `Strings.Trim`: lengths count characters, not UTF-16 code units.
- The CRUD components (buildings, facilities, therapists), the dashboards, the role-selection page, the admin layout and the forbidden page: they hold form and HTTP plumbing or constant data only.
- `UsersComponent.loadData`, `UsersComponent.submit` and `userGroups`: HTTP plumbing and constant data.
- `Users.DecorateUsers`: a `null` role with no fallback comes out `undefined` in the source. Both are `None` here, and every display reads the two alike.
- The user record's open index signature: only the alternative field names the component reads are fields. Each value is taken at the type the component casts it to.

=== FILE: app_routing.dfy ===
/** `AppRoutingModule`: the application's route table and which routes `RoleGuard`
    protects with which roles. Matching follows the Angular router for the shapes
    this table uses: routes are tried in order, a route's path matches one URL
    segment, a route with children also matches one more segment against a child
    (`''` matching nothing more, `:role` matching any segment), a leaf route must
    consume the whole URL, `''` with `pathMatch: 'full'` matches only the empty URL
    and `**` matches every URL. */
module AppRouting {
  import opened Wrappers
  import opened Roles
  import opened RoleGuard
  import Login

  /** One entry of `routes`. */
  datatype Route = Route(
    path: string,
    children: seq<string>,      // paths of the child routes; [] for a leaf
    guarded: bool,              // `canActivate: [authGuard, RoleGuard]`
    data: Option<seq<Role>>,    // `data: { roles: [...] }`
    redirectTo: Option<string>)

  const Routes: seq<Route> := [
    Route("login", [], false, None, None),
    Route("register", ["", ":role"], false, None, None),
    Route("admin", ["", "buildings", "facilities", "therapists", "users", "reservations"],
          true, Some([Admin]), None),
    Route("therapist", [], true, Some([Terapeuta]), None),
    Route("patient", [], true, Some([Paciente]), None),
    Route("user", [], true, Some([Usuario, Admin]), None),
    Route("forbidden", [], false, None, None),
    Route("", [], false, None, Some("login")),
    Route("**", [], false, None, Some("login"))
  ]

  /** A `:name` path segment is a parameter and matches any segment. */
  predicate SegmentMatches(pattern: string, segment: string) {
    (|pattern| > 0 && pattern[0] == ':') || pattern == segment
  }

  predicate ChildMatches(child: string, rest: Url) {
    if child == "" then rest == [] else |rest| == 1 && SegmentMatches(child, rest[0])
  }

  predicate Matches(r: Route, url: Url) {
    if r.path == "**" then true
    else if r.path == "" then url == []
    else
      && |url| >= 1
      && url[0] == r.path
      && if r.children == [] then |url| == 1
         else exists i :: 0 <= i < |r.children| && ChildMatches(r.children[i], url[1..])
  }

  /** The router's choice: the index of the first route that matches. */
  function FirstMatch(routes: seq<Route>, url: Url): (m: Option<nat>)
    ensures m.None? <==> forall j :: 0 <= j < |routes| ==> !Matches(routes[j], url)
    ensures m.Some? ==> m.value < |routes| && Matches(routes[m.value], url)
    ensures m.Some? ==> forall j :: 0 <= j < m.value ==> !Matches(routes[j], url)
  {
    if routes == [] then None
    else if Matches(routes[0], url) then Some(0)
    else
      match FirstMatch(routes[1..], url)
      case None => None
      case Some(k) =>
        assert forall j :: 1 <= j < k + 1 ==> routes[j] == routes[1..][j - 1];
        Some(k + 1)
  }

  /** What the router does with a navigation request. */
  datatype Activation = Render(url: Url) | GoTo(target: Url)

  /** Navigating to `url` with the given session: a redirect route sends the router
      on; a guarded route asks `RoleGuard`; any other route is rendered. */
  function Navigate(url: Url, loggedIn: bool, role: Option<Role>): (a: Activation)
    ensures a.Render? ==> a.url == url
    ensures a.GoTo? ==> a.target == LoginUrl || a.target == ForbiddenUrl
    ensures a == GoTo(ForbiddenUrl) ==> loggedIn
    ensures !loggedIn ==> a.GoTo? ==> a.target == LoginUrl
  {
    match FirstMatch(Routes, url)
    case None => GoTo(LoginUrl)   // never taken: the wildcard route matches every URL
    case Some(i) =>
      var r := Routes[i];
      if r.redirectTo.Some? then GoTo([r.redirectTo.value])
      else if r.guarded then
        match CanActivate(loggedIn, role, r.data)
        case Allow => Render(url)
        case Redirect(target) => GoTo(target)
      else Render(url)
  }

  /** The route the router picks for `url`: the wildcard guarantees one exists. */
  lemma {:induction false} SomeRouteMatches(url: Url)
    ensures FirstMatch(Routes, url).Some?
  {
    assert Matches(Routes[8], url);
  }

  /** Every guarded route carries a non-empty role list. */
  lemma GuardedRoutesHaveRoles()
    ensures forall i :: 0 <= i < |Routes| && Routes[i].guarded ==>
              Routes[i].data.Some? && |Routes[i].data.value| > 0
  {
  }

  /** The routes without a guard: login, registration and the forbidden page. */
  lemma UnguardedRoutes()
    ensures forall i :: 0 <= i < |Routes| && !Routes[i].guarded && Routes[i].redirectTo.None? ==>
              Routes[i].path in {"login", "register", "forbidden"}
  {
  }

  /** Which route the router picks for URLs starting with a known name. */
  lemma {:induction false} Resolves(url: Url, i: nat)
    requires i < |Routes| && Matches(Routes[i], url)
    requires forall j :: 0 <= j < i ==> !Matches(Routes[j], url)
    ensures FirstMatch(Routes, url) == Some(i)
  {
  }

  /** A rendered page is a named route, and if that route is guarded the guard admitted the session. */
  lemma {:induction false} RenderedRoute(url: Url, loggedIn: bool, role: Option<Role>)
    requires Navigate(url, loggedIn, role).Render?
    ensures FirstMatch(Routes, url).Some?
    ensures var r := Routes[FirstMatch(Routes, url).value];
            && r.redirectTo.None?
            && |url| >= 1 && url[0] == r.path
            && (r.guarded ==> CanActivate(loggedIn, role, r.data) == Allow)
  {
    SomeRouteMatches(url);
  }

  /** Login, registration (with or without a role parameter) and the forbidden page
      render for everyone. */
  lemma OpenPages(loggedIn: bool, role: Option<Role>, param: string)
    ensures Navigate(["login"], loggedIn, role) == Render(["login"])
    ensures Navigate(["register"], loggedIn, role) == Render(["register"])
    ensures Navigate(["register", param], loggedIn, role) == Render(["register", param])
    ensures Navigate(["forbidden"], loggedIn, role) == Render(["forbidden"])
  {
    Resolves(["login"], 0);
    RegisterResolves(["register"]);
    RegisterResolves(["register", param]);
    ForbiddenResolves();
  }

  lemma RegisterResolves(url: Url)
    requires url == ["register"] || (|url| == 2 && url[0] == "register")
    ensures FirstMatch(Routes, url) == Some(1)
  {
    assert !Matches(Routes[0], url);
    if |url| == 1 {
      assert ChildMatches(Routes[1].children[0], url[1..]);
    } else {
      assert ChildMatches(Routes[1].children[1], url[1..]);
    }
    Resolves(url, 1);
  }

  lemma ForbiddenResolves()
    ensures FirstMatch(Routes, ["forbidden"]) == Some(6)
  {
    Resolves(["forbidden"], 6);
  }

  /** The empty path and every path outside the table redirect to `login`. */
  lemma UnknownGoesToLogin(url: Url, loggedIn: bool, role: Option<Role>)
    requires url == [] || url[0] !in {"login", "register", "admin", "therapist", "patient", "user", "forbidden"}
    ensures Navigate(url, loggedIn, role) == GoTo(LoginUrl)
  {
    if url == [] {
      Resolves(url, 7);
    } else {
      Resolves(url, 8);
    }
  }

  /** An `/admin` child path the table does not list is unknown too. */
  lemma UnknownAdminChildGoesToLogin(child: string, loggedIn: bool, role: Option<Role>)
    requires child !in Routes[2].children
    ensures Navigate(["admin", child], loggedIn, role) == GoTo(LoginUrl)
  {
    Resolves(["admin", child], 8);
  }

  /** `/admin` and every child of it require the `ADMIN` role. */
  lemma AdminSubtreeRequiresAdmin(child: string, loggedIn: bool, role: Option<Role>)
    requires child in Routes[2].children
    ensures var url := if child == "" then ["admin"] else ["admin", child];
            Navigate(url, loggedIn, role) == GuardedOutcome(url, loggedIn, role, {Admin})
  {
    var url := if child == "" then ["admin"] else ["admin", child];
    var k :| 0 <= k < |Routes[2].children| && Routes[2].children[k] == child;
    assert ChildMatches(Routes[2].children[k], url[1..]);
    Resolves(url, 2);
  }

  /** The decision at a guarded page that admits exactly the roles in `admitted`. */
  function GuardedOutcome(url: Url, loggedIn: bool, role: Option<Role>, admitted: set<Role>): Activation {
    if !loggedIn then GoTo(LoginUrl)
    else if role.Some? && role.value in admitted then Render(url)
    else GoTo(ForbiddenUrl)
  }

  /** `/therapist` admits only `TERAPEUTA`. */
  lemma TherapistRequiresTerapeuta(loggedIn: bool, role: Option<Role>)
    ensures Navigate(["therapist"], loggedIn, role) == GuardedOutcome(["therapist"], loggedIn, role, {Terapeuta})
  {
    TherapistResolves();
  }

  /** `/patient` admits only `PACIENTE`. */
  lemma PatientRequiresPaciente(loggedIn: bool, role: Option<Role>)
    ensures Navigate(["patient"], loggedIn, role) == GuardedOutcome(["patient"], loggedIn, role, {Paciente})
  {
    PatientResolves();
  }

  /** `/user` admits `USUARIO` and `ADMIN`. */
  lemma UserRequiresUsuarioOrAdmin(loggedIn: bool, role: Option<Role>)
    ensures Navigate(["user"], loggedIn, role) == GuardedOutcome(["user"], loggedIn, role, {Usuario, Admin})
  {
    UserResolves();
  }

  lemma TherapistResolves()
    ensures FirstMatch(Routes, ["therapist"]) == Some(3)
  {
    Resolves(["therapist"], 3);
  }

  lemma PatientResolves()
    ensures FirstMatch(Routes, ["patient"]) == Some(4)
  {
    Resolves(["patient"], 4);
  }

  lemma UserResolves()
    ensures FirstMatch(Routes, ["user"]) == Some(5)
  {
    Resolves(["user"], 5);
  }

  /** Without a session only the open pages render. */
  lemma LoggedOutSeesOnlyOpenPages(url: Url, role: Option<Role>)
    requires Navigate(url, false, role).Render?
    ensures |url| >= 1 && url[0] in {"login", "register", "forbidden"}
  {
    RenderedRoute(url, false, role);
  }

  /** A session that claims no role renders only the open pages: every guarded
      route has roles, so the guard forbids it. */
  lemma RoleLessSeesOnlyOpenPages(url: Url)
    requires Navigate(url, true, None).Render?
    ensures |url| >= 1 && url[0] in {"login", "register", "forbidden"}
  {
    RenderedRoute(url, true, None);
    GuardedRoutesHaveRoles();
  }

  /** `ADMIN` may enter both `/admin` and `/user`. */
  lemma AdminEntersAdminAndUser()
    ensures Navigate(["admin"], true, Some(Admin)) == Render(["admin"])
    ensures Navigate(["user"], true, Some(Admin)) == Render(["user"])
  {
    AdminSubtreeRequiresAdmin("", true, Some(Admin));
    UserRequiresUsuarioOrAdmin(true, Some(Admin));
  }

  /** Among guarded routes, `USUARIO` may enter only `/user`. */
  lemma UsuarioEntersOnlyUser(url: Url)
    requires Navigate(url, true, Some(Usuario)).Render?
    ensures |url| >= 1 && url[0] in {"login", "register", "forbidden", "user"}
  {
    RenderedRoute(url, true, Some(Usuario));
  }

  /** Every role's landing page after login admits that role. */
  lemma LandingAdmitsRole(r: Role)
    ensures var url := Login.RedirectByRole(Some(r));
            Navigate(url, true, Some(r)) == Render(url)
  {
    match r
    case Admin => AdminSubtreeRequiresAdmin("", true, Some(r));
    case Terapeuta => TherapistRequiresTerapeuta(true, Some(r));
    case Paciente => PatientRequiresPaciente(true, Some(r));
    case Usuario => UserRequiresUsuarioOrAdmin(true, Some(r));
  }

  /** Whoever `ngOnInit` sends on from the login page lands on a page that renders for
      them: a role's landing page admits it, and a session with no role is sent to the
      open login page. */
  lemma OnInitTargetRenders(role: Option<Role>)
    ensures Login.OnInit(true, role).Some?
    ensures var url := Login.OnInit(true, role).value;
            Navigate(url, true, role) == Render(url)
  {
    match role
    case Some(r) => LandingAdmitsRole(r);
    case None => OpenPages(true, None, "");
  }
}

=== FILE: auth_service.dfy ===
/** `AuthService`: the state effects of logging in and out. The HTTP exchange
    itself is an input: the outcome of the `POST` to the authentication endpoint. */
module AuthService {
  import opened Wrappers
  import opened TokenService

  /** The body of a successful authentication response. Only `token` is read; the
      rest of the body stands in `other`. */
  datatype AuthResponse = AuthResponse(token: string, other: map<string, string>)

  /** How the request ended: a response body, or an error on the observable. */
  datatype HttpOutcome = Ok(body: AuthResponse) | Failed

  /** `authenticate(request)` once its observable has completed: on success the
      `tap` stores `response.token`; on error the `tap` never runs. */
  function Authenticate(s: TokenState, outcome: HttpOutcome): (s': TokenState)
    ensures outcome.Ok? ==> GetToken(s') == Some(outcome.body.token)
    ensures outcome.Ok? ==> (HasToken(s') <==> outcome.body.token != "")
    ensures outcome.Ok? ==> Mirrored(s')
    ensures outcome.Failed? ==> s' == s
    ensures s'.isBrowser == s.isBrowser
    ensures !s.isBrowser ==> s'.storage == s.storage
    ensures forall k :: k != StorageKey ==> GetItem(s'.storage, k) == GetItem(s.storage, k)
  {
    match outcome
    case Ok(response) => SetToken(s, response.token)
    case Failed => s
  }

  /** `logout()`: clears the token store; nothing else is part of its effect. */
  function Logout(s: TokenState): (s': TokenState)
    ensures !HasToken(s') && GetToken(s') == None
    ensures Mirrored(s')
    ensures s'.isBrowser == s.isBrowser
    ensures !s.isBrowser ==> s'.storage == s.storage
    ensures forall k :: k != StorageKey ==> GetItem(s'.storage, k) == GetItem(s.storage, k)
  {
    ClearToken(s)
  }

  /** Only the `token` field of the response decides the new state. */
  lemma OnlyTokenRead(s: TokenState, a: AuthResponse, b: AuthResponse)
    requires a.token == b.token
    ensures Authenticate(s, Ok(a)) == Authenticate(s, Ok(b))
  {
  }

  /** Two logins that both complete: the one completing later decides the session. */
  lemma LaterLoginWins(s: TokenState, a: AuthResponse, b: AuthResponse)
    ensures Authenticate(Authenticate(s, Ok(a)), Ok(b)) == Authenticate(s, Ok(b))
  {
  }

  /** Logging out after a login leaves the same state as logging out before it. */
  lemma LogoutUndoesLogin(s: TokenState, outcome: HttpOutcome)
    ensures Logout(Authenticate(s, outcome)) == Logout(s)
  {
  }
}

=== FILE: login.dfy ===
/** `LoginComponent`: where a user is sent after a session is established, and the
    state changes of submitting the login form. `isLoggedIn()` and `getRole()` are
    inputs; after a login the role is read from the new token store through `roleOf`. */
module Login {
  import opened Wrappers
  import opened Roles
  import opened RoleGuard
  import opened TokenService
  import opened AuthService

  const AdminUrl: Url := ["admin"]
  const TherapistUrl: Url := ["therapist"]
  const PatientUrl: Url := ["patient"]
  const UserUrl: Url := ["user"]

  const LoginFailedMessage: string :=
    "No se pudo iniciar sesión. Revisa tus credenciales o intenta más tarde."

  /** `redirectByRole`: each role's landing page; no role goes back to the login page. */
  function RedirectByRole(role: Option<Role>): (url: Url)
    ensures role == None <==> url == LoginUrl
    ensures role == Some(Admin) <==> url == AdminUrl
    ensures role == Some(Terapeuta) <==> url == TherapistUrl
    ensures role == Some(Paciente) <==> url == PatientUrl
    ensures role == Some(Usuario) <==> url == UserUrl
  {
    match role
    case Some(Admin) => AdminUrl
    case Some(Terapeuta) => TherapistUrl
    case Some(Paciente) => PatientUrl
    case Some(Usuario) => UserUrl
    case None => LoginUrl
  }

  /** Distinct roles land on distinct pages. */
  lemma RedirectInjective(a: Option<Role>, b: Option<Role>)
    ensures RedirectByRole(a) == RedirectByRole(b) <==> a == b
  {
  }

  /** `ngOnInit`: an active session is sent on to its landing page at once. */
  function OnInit(loggedIn: bool, role: Option<Role>): (nav: Option<Url>)
    ensures nav.Some? <==> loggedIn
    ensures nav.Some? ==> nav.value == RedirectByRole(role)
  {
    if loggedIn then Some(RedirectByRole(role)) else None
  }

  datatype Credentials = Credentials(username: string, password: string)

  /** Both fields carry `Validators.required`, which rejects the empty string: the
      form is valid exactly when neither field is empty. */
  predicate FormValid(c: Credentials) {
    c.username != "" && c.password != ""
  }

  datatype LoginView = LoginView(loading: bool, error: Option<string>)

  /** What `submit()` leaves behind once the request, if any, has completed. */
  datatype SubmitResult = SubmitResult(
    view: LoginView,
    store: TokenState,
    requested: bool,     // whether `authenticate` was called
    touched: bool,       // whether the form was marked as touched
    navigation: Option<Url>)

  function Submit(form: Credentials, view: LoginView, store: TokenState, outcome: HttpOutcome,
                  roleOf: TokenState -> Option<Role>): (r: SubmitResult)
    ensures !FormValid(form) ==>
      r.touched && !r.requested && r.view == view && r.store == store && r.navigation == None
    ensures FormValid(form) ==> r.requested && !r.touched && !r.view.loading
    ensures FormValid(form) && outcome.Ok? ==>
      && r.view.error == None
      && r.store == Authenticate(store, outcome)
      && GetToken(r.store) == Some(outcome.body.token)
      && r.navigation == Some(RedirectByRole(roleOf(r.store)))
    ensures FormValid(form) && outcome.Failed? ==>
      r.view.error == Some(LoginFailedMessage) && r.store == store && r.navigation == None
  {
    if !FormValid(form) then
      SubmitResult(view, store, false, true, None)
    else
      // loading is raised and the error cleared before the request is sent
      var pending := LoginView(true, None);
      match outcome
      case Ok(_) =>
        var store' := Authenticate(store, outcome);
        SubmitResult(pending.(loading := false), store', true, false, Some(RedirectByRole(roleOf(store'))))
      case Failed =>
        SubmitResult(LoginView(false, Some(LoginFailedMessage)), store, true, false, None)
  }

  /** A failed login never establishes a session that was not there before. */
  lemma FailedLoginKeepsSession(form: Credentials, view: LoginView, store: TokenState,
                                roleOf: TokenState -> Option<Role>)
    ensures HasToken(Submit(form, view, store, Failed, roleOf).store) == HasToken(store)
  {
  }

  /** The form starts with both fields empty: submitting it untouched sends nothing and
      only marks the fields as touched. */
  lemma EmptyFormSendsNothing(view: LoginView, store: TokenState, outcome: HttpOutcome,
                              roleOf: TokenState -> Option<Role>)
    ensures var r := Submit(Credentials("", ""), view, store, outcome, roleOf);
            r.touched && !r.requested && r.store == store && r.navigation == None
  {
  }
}

=== FILE: register.dfy ===
/** `RegisterComponent`: the registration role taken from the route parameter, the
    password-confirmation validator and the payload sent for each kind of account. */
module Register {
  import opened Wrappers
  import opened Strings
  import opened Roles
  import opened RoleGuard

  /** `RegistrationRole`, the `:role` segment of `/register/:role`. */
  datatype RegistrationRole = Therapist | User | Patient

  const RegisterUrl: Url := ["register"]

  /** The accepted parameter spellings; anything else is no role. */
  function ParseParam(p: string): (r: Option<RegistrationRole>)
    ensures r == Some(Therapist) <==> p == "therapist"
    ensures r == Some(User) <==> p == "user"
    ensures r == Some(Patient) <==> p == "patient"
  {
    if p == "therapist" then Some(Therapist)
    else if p == "user" then Some(User)
    else if p == "patient" then Some(Patient)
    else None
  }

  /** The `role` code sent to the backend. */
  function RoleCode(r: RegistrationRole): (code: Role)
    ensures code != Admin
    ensures code == Terapeuta <==> r == Therapist
    ensures code == Usuario <==> r == User
    ensures code == Paciente <==> r == Patient
  {
    match r
    case Therapist => Terapeuta
    case User => Usuario
    case Patient => Paciente
  }

  /** The component state `handleParams` and `submit` share: the current role signal
      and the form's controls. */
  datatype RegisterState = RegisterState(currentRole: RegistrationRole, form: RegisterForm)

  /** The initial state: `currentRole` starts as `'patient'`, the form as built. */
  const InitialState := RegisterState(Patient, InitialForm)

  datatype ParamsResult = ParamsResult(state: RegisterState, navigation: Option<Url>)

  /** `handleParams`: a missing or unknown role sends the user back to the role
      selection page and changes nothing; a known one becomes the current role and
      resets the therapist-only controls, leaving every other control as it was. */
  function HandleParams(st: RegisterState, param: Option<string>): (r: ParamsResult)
    ensures (param.None? || ParseParam(param.value).None?) ==>
              r.state == st && r.navigation == Some(RegisterUrl)
    ensures param.Some? && ParseParam(param.value).Some? ==>
              && r.navigation == None
              && r.state.currentRole == ParseParam(param.value).value
              && !r.state.form.professionalCard && r.state.form.specialty == ""
              && r.state.form.(professionalCard := st.form.professionalCard, specialty := st.form.specialty) == st.form
  {
    if !Truthy(param) || ParseParam(param.value).None? then ParamsResult(st, Some(RegisterUrl))
    else
      var form := st.form.(professionalCard := false, specialty := "");
      ParamsResult(RegisterState(ParseParam(param.value).value, form), None)
  }

  /** The professional card control is shown exactly for therapists. */
  function ShowProfessionalCard(st: RegisterState): (show: bool)
    ensures show <==> RoleCode(st.currentRole) == Terapeuta
  {
    st.currentRole == Therapist
  }

  /** After a valid parameter, the card is shown exactly when the parameter is `therapist`. */
  lemma ShowCardAfterParams(st: RegisterState, p: string)
    requires ParseParam(p).Some?
    ensures ShowProfessionalCard(HandleParams(st, Some(p)).state) <==> p == "therapist"
  {
  }

  /** `ValidationErrors` of the form: only `passwordMismatch` is produced here. */
  datatype ValidationError = PasswordMismatch

  /** `passwordMatchValidator`: silent while either field is empty (`required`
      reports that), otherwise a mismatch error exactly when the two differ. */
  function PasswordMatch(password: Option<string>, confirm: Option<string>): (e: Option<ValidationError>)
    ensures (!Truthy(password) || !Truthy(confirm)) ==> e == None
    ensures Truthy(password) && Truthy(confirm) ==> (e == None <==> password == confirm)
    ensures e != None ==> e == Some(PasswordMismatch)
  {
    if !Truthy(password) || !Truthy(confirm) then None
    else if password == confirm then None
    else Some(PasswordMismatch)
  }

  /** Which field is the password and which the confirmation does not matter. */
  lemma PasswordMatchSymmetric(a: Option<string>, b: Option<string>)
    ensures PasswordMatch(a, b) == PasswordMatch(b, a)
  {
  }

  datatype RegisterForm = RegisterForm(
    username: string, firstName: string, lastName: string, docType: string,
    document: string, email: string, telephone: string, professionalCard: bool,
    specialty: string, password: string, confirmPassword: string)

  /** The form's validators: `required` on every text control (the empty string fails
      it), `minLength(6)` on both passwords, `email` (an input, since it is Angular's
      own pattern) and the password-match validator on the whole group. A valid form
      has every required control filled in, a well-formed e-mail and one password of at
      least six characters, typed twice. */
  function FormValid(f: RegisterForm, emailValid: bool): (b: bool)
    ensures b ==> f.password == f.confirmPassword && |f.password| >= 6
    ensures b ==> emailValid
    ensures b ==> f.username != "" && f.firstName != "" && f.lastName != "" && f.document != ""
    ensures b ==> f.email != "" && f.telephone != "" && f.docType != ""
    ensures b <== && f.username != "" && f.firstName != "" && f.lastName != "" && f.docType != ""
                  && f.document != "" && f.email != "" && f.telephone != "" && emailValid
                  && |f.password| >= 6 && f.password == f.confirmPassword
  {
    && f.username != "" && f.firstName != "" && f.lastName != "" && f.docType != ""
    && f.document != "" && f.email != "" && f.telephone != ""
    && |f.password| >= 6 && |f.confirmPassword| >= 6
    && emailValid
    && PasswordMatch(Some(f.password), Some(f.confirmPassword)) == None
  }

  /** The form as built: every text control empty except `docType`, which starts at
      `'CC'`; the checkbox unchecked. */
  const InitialForm := RegisterForm("", "", "", "CC", "", "", "", false, "", "", "")

  /** The page opens on the patient form, which has no professional card, and its
      form cannot be submitted until filled in. */
  lemma InitialStateNotSubmittable(emailValid: bool)
    ensures !ShowProfessionalCard(InitialState)
    ensures Submit(InitialState, emailValid) == None
  {
  }

  /** `BaseRegistrationPayload` as `submit` fills it in. */
  datatype BasePayload = BasePayload(
    username: string, firstName: string, lastName: string, fullName: string,
    docType: string, document: string, email: string, telephone: string,
    phoneNumber: string, password: string, role: Role)

  /** The request `submit` sends, one per registration endpoint. */
  datatype Request =
    | RegisterTherapist(base: BasePayload, professionalCard: bool, specialty: Option<string>)
    | RegisterUser(base: BasePayload)
    | RegisterPatient(base: BasePayload)

  function BuildBase(f: RegisterForm, role: RegistrationRole): (p: BasePayload)
    ensures p.username == Trim(f.username) && p.firstName == Trim(f.firstName) && p.lastName == Trim(f.lastName)
    ensures p.document == Trim(f.document) && p.email == Trim(f.email) && p.telephone == Trim(f.telephone)
    ensures p.phoneNumber == Trim(f.telephone)
    ensures p.fullName == Trim(f.firstName + " " + f.lastName)
    ensures Trimmed(p.username) && Trimmed(p.firstName) && Trimmed(p.lastName)
    ensures Trimmed(p.document) && Trimmed(p.email) && Trimmed(p.telephone)
    ensures Trimmed(p.fullName)
    ensures p.fullName == "" <==> AllWhitespace(f.firstName) && AllWhitespace(f.lastName)
    ensures p.docType == f.docType && p.password == f.password
    ensures p.role == RoleCode(role)
  {
    var fullName := Trim(f.firstName + " " + f.lastName);
    AllWhitespaceJoin(f.firstName, f.lastName);
    BasePayload(
      Trim(f.username), Trim(f.firstName), Trim(f.lastName), fullName,
      f.docType, Trim(f.document), Trim(f.email), Trim(f.telephone),
      Trim(f.telephone), f.password, RoleCode(role))
  }

  /** `specialty?.trim() || undefined`. */
  function SpecialtyField(specialty: string): (r: Option<string>)
    ensures r.None? <==> AllWhitespace(specialty)
    ensures r.Some? ==> r.value != "" && Trimmed(r.value) && r.value == Trim(specialty)
  {
    var t := Trim(specialty);
    if t == "" then None else Some(t)
  }

  /** `submit`: nothing is sent for an invalid form; otherwise the request for the
      current role, with the therapist-only fields only on the therapist request. */
  function Submit(st: RegisterState, emailValid: bool): (r: Option<Request>)
    ensures r.None? <==> !FormValid(st.form, emailValid)
    ensures r.Some? ==> r.value.base == BuildBase(st.form, st.currentRole)
    ensures r.Some? ==> (r.value.RegisterTherapist? <==> st.currentRole == Therapist)
    ensures r.Some? ==> (r.value.RegisterUser? <==> st.currentRole == User)
    ensures r.Some? ==> (r.value.RegisterPatient? <==> st.currentRole == Patient)
    ensures r.Some? && r.value.RegisterTherapist? ==>
              && r.value.professionalCard == st.form.professionalCard
              && r.value.specialty == SpecialtyField(st.form.specialty)
  {
    var f := st.form;
    if !FormValid(f, emailValid) then None
    else
      var base := BuildBase(f, st.currentRole);
      match st.currentRole
      case Therapist => Some(RegisterTherapist(base, f.professionalCard, SpecialtyField(f.specialty)))
      case User => Some(RegisterUser(base))
      case Patient => Some(RegisterPatient(base))
  }

  /** The endpoint and the role code always agree. */
  lemma EndpointMatchesRoleCode(st: RegisterState, emailValid: bool)
    requires FormValid(st.form, emailValid)
    ensures var req := Submit(st, emailValid).value;
            (req.RegisterTherapist? <==> req.base.role == Terapeuta)
            && (req.RegisterUser? <==> req.base.role == Usuario)
            && (req.RegisterPatient? <==> req.base.role == Paciente)
  {
  }

  /** What the reset in `handleParams` is for: submitted straight after arriving at
      `/register/therapist`, the therapist request carries no professional card and no
      specialty, whatever the controls held before; the other controls are submitted
      as they were. */
  lemma TherapistParamClearsExtras(st: RegisterState, emailValid: bool)
    requires FormValid(st.form, emailValid)
    ensures var st' := HandleParams(st, Some("therapist")).state;
            Submit(st', emailValid) == Some(RegisterTherapist(BuildBase(st.form, Therapist), false, None))
  {
    var st' := HandleParams(st, Some("therapist")).state;
    assert AllWhitespace(st'.form.specialty);
  }
}

=== FILE: reservations.dfy ===
/** `ReservationsComponent`: converting the API's `dd/MM/yyyy` dates for the date
    input, filling the form from a reservation, and choosing what `submit` and
    `remove` send. Angular's `formatDate`, behind `toApiDate`, is an input. */
module Reservations {
  import opened Wrappers
  import opened Strings

  /** `fromApiDate(date)`: splits on `'/'`, then writes `year-month-day` with month and
      day left-padded with `'0'` to two characters. A date without any `'/'` makes
      `month.padStart` throw on `undefined` (`None` here); with one `'/'` the year is
      `undefined`, which the template literal prints as the text "undefined"; parts
      after a third are dropped. */
  function FromApiDate(date: string): (r: Option<string>)
    ensures r.None? <==> '/' !in date
  {
    var parts := Split(date, '/');
    if |parts| < 2 then
      assert Join(parts, '/') == parts[0];
      None
    else
      assert '/' in date by { SplitCount(date, '/'); CountAbsent(date, '/'); }
      var year := if |parts| >= 3 then parts[2] else "undefined";
      Some(year + "-" + PadStart(parts[1], 2, '0') + "-" + PadStart(parts[0], 2, '0'))
  }

  /** Day and month after padding: two digits for one-digit values, anything longer unchanged. */
  function Pad2(s: string): (r: string)
    ensures |r| == if |s| >= 2 then |s| else 2
    ensures |s| >= 2 ==> r == s
    ensures r[|r| - |s|..] == s
    ensures forall i :: 0 <= i < |r| - |s| ==> r[i] == '0'
  {
    PadStart(s, 2, '0')
  }

  /** A well-formed `d/m/y` becomes `y-mm-dd`: the year verbatim, month and day padded. */
  lemma FromApiDateParts(d: string, m: string, y: string)
    requires '/' !in d && '/' !in m && '/' !in y
    ensures FromApiDate(d + "/" + m + "/" + y) == Some(y + "-" + Pad2(m) + "-" + Pad2(d))
  {
    SplitThree(d, m, y, '/');
  }

  lemma SplitThree(a: string, b: string, c: string, sep: char)
    requires sep !in a && sep !in b && sep !in c
    ensures Split(a + [sep] + b + [sep] + c, sep) == [a, b, c]
  {
    var parts := [a, b, c];
    assert parts[1..] == [b, c];
    JoinPair(b, c, sep);
    assert Join(parts, sep) == a + [sep] + (b + [sep] + c);
    assert a + [sep] + (b + [sep] + c) == a + [sep] + b + [sep] + c;
    SplitJoin(parts, sep);
  }

  /** The output's length: year, padded month, padded day and the two dashes. */
  lemma FromApiDateLength(d: string, m: string, y: string)
    requires '/' !in d && '/' !in m && '/' !in y
    ensures |FromApiDate(d + "/" + m + "/" + y).value| == |y| + |Pad2(m)| + |Pad2(d)| + 2
  {
    FromApiDateParts(d, m, y);
  }

  /** When no part contains a `'-'`, the output has exactly two, and splitting it on
      `'-'` gives back the year and the padded month and day. */
  lemma FromApiDateDashes(d: string, m: string, y: string)
    requires '/' !in d && '/' !in m && '/' !in y
    requires '-' !in d && '-' !in m && '-' !in y
    ensures Split(FromApiDate(d + "/" + m + "/" + y).value, '-') == [y, Pad2(m), Pad2(d)]
    ensures Count(FromApiDate(d + "/" + m + "/" + y).value, '-') == 2
  {
    FromApiDateParts(d, m, y);
    PadAddsOnlyZeros(m, '-');
    PadAddsOnlyZeros(d, '-');
    var r := y + "-" + Pad2(m) + "-" + Pad2(d);
    SplitThree(y, Pad2(m), Pad2(d), '-');
    SplitCount(r, '-');
  }

  /** Padding adds nothing but zeros. */
  lemma PadAddsOnlyZeros(s: string, c: char)
    requires c != '0' && c !in s
    ensures c !in Pad2(s)
  {
    var p := Pad2(s);
    var k := |p| - |s|;
    forall i | 0 <= i < |p| ensures p[i] != c {
      if i >= k { assert p[i] == p[k..][i - k]; }
    }
  }

  /** The id-only view of a nested `facilityDto` or `therapistDto`. */
  datatype Ref = Ref(id: Option<int>)

  datatype Reservation = Reservation(
    id: Option<int>,
    fkFacility: Option<int>,
    fkTherapist: Option<int>,
    reservationDate: Option<string>,
    facilityDto: Option<Ref>,
    therapistDto: Option<Ref>)

  /** The form's controls: `id`, `fkFacility`, `fkTherapist`, `reservationDate`. */
  datatype ReservationForm = ReservationForm(
    id: Option<int>, fkFacility: Option<int>, fkTherapist: Option<int>, reservationDate: string)

  /** `dto?.id`. */
  function RefId(dto: Option<Ref>): Option<int> {
    match dto
    case Some(d) => d.id
    case None => None
  }

  /** `edit(reservation)`: the form values it sets; `None` when `fromApiDate` throws. */
  function Edit(res: Reservation): (f: Option<ReservationForm>)
    ensures f.None? <==> Truthy(res.reservationDate) && '/' !in res.reservationDate.value
    ensures f.Some? ==> f.value.id == res.id
    ensures f.Some? ==> (res.fkFacility.Some? ==> f.value.fkFacility == res.fkFacility)
    ensures f.Some? ==> (res.fkFacility.None? ==> f.value.fkFacility == RefId(res.facilityDto))
    ensures f.Some? ==> (res.fkTherapist.Some? ==> f.value.fkTherapist == res.fkTherapist)
    ensures f.Some? ==> (res.fkTherapist.None? ==> f.value.fkTherapist == RefId(res.therapistDto))
    ensures f.Some? ==> (f.value.reservationDate == "" <==> !Truthy(res.reservationDate))
    ensures f.Some? && Truthy(res.reservationDate) ==>
              Some(f.value.reservationDate) == FromApiDate(res.reservationDate.value)
  {
    var date :=
      if Truthy(res.reservationDate) then FromApiDate(res.reservationDate.value) else Some("");
    match date
    case None => None
    case Some(d) =>
      Some(ReservationForm(
        res.id,
        res.fkFacility.Or(RefId(res.facilityDto)),
        res.fkTherapist.Or(RefId(res.therapistDto)),
        d))
  }

  /** What `submit` sends to the backend. */
  datatype Payload = Payload(id: Option<int>, fkFacility: int, fkTherapist: int, reservationDate: string)

  const IncompleteMessage: string := "Completa todos los campos obligatorios."

  /** The outcome of `submit`: the form marked as touched, the "complete every field"
      error, or a create or an update request. */
  datatype SubmitOutcome =
    | Touched
    | Incomplete(message: string)
    | Create(payload: Payload)
    | Update(payload: Payload)

  /** `Validators.required` on the facility, therapist and date controls: it rejects
      `null` and the empty string, but not the number 0; `id` is not required. */
  predicate FormValid(f: ReservationForm) {
    f.fkFacility.Some? && f.fkTherapist.Some? && f.reservationDate != ""
  }

  /** The form as built: every control `null`, the date empty. */
  const InitialForm := ReservationForm(None, None, None, "")

  /** JavaScript truthiness of an optional number. */
  predicate TruthyId(x: Option<int>) {
    x.Some? && x.value != 0
  }

  function Submit(f: ReservationForm, toApiDate: string -> string): (r: SubmitOutcome)
    ensures r == Touched <==> !FormValid(f)
    ensures r.Incomplete? <==> FormValid(f) && (!TruthyId(f.fkFacility) || !TruthyId(f.fkTherapist))
    ensures r.Incomplete? ==> r.message == IncompleteMessage
    ensures (r.Create? || r.Update?) ==>
              && TruthyId(f.fkFacility) && TruthyId(f.fkTherapist) && f.reservationDate != ""
              && r.payload == Payload(f.id, f.fkFacility.value, f.fkTherapist.value, toApiDate(f.reservationDate))
    ensures r.Update? <==> FormValid(f) && TruthyId(f.fkFacility) && TruthyId(f.fkTherapist) && TruthyId(f.id)
  {
    if !FormValid(f) then Touched
    else if !TruthyId(f.fkFacility) || !TruthyId(f.fkTherapist) || f.reservationDate == "" then
      Incomplete(IncompleteMessage)
    else
      var payload := Payload(f.id, f.fkFacility.value, f.fkTherapist.value, toApiDate(f.reservationDate));
      if TruthyId(f.id) then Update(payload) else Create(payload)
  }

  /** An id of 0 is present but falsy: `submit` creates rather than updates. */
  lemma ZeroIdCreates(f: ReservationForm, toApiDate: string -> string)
    requires FormValid(f) && TruthyId(f.fkFacility) && TruthyId(f.fkTherapist)
    requires f.id == Some(0)
    ensures Submit(f, toApiDate) == Create(Payload(Some(0), f.fkFacility.value, f.fkTherapist.value, toApiDate(f.reservationDate)))
  {
  }

  /** A facility or therapist of 0 passes `required` but is falsy: `submit` answers
      with the "complete every field" error instead of sending anything, while an
      untouched form is only marked as touched. */
  lemma ZeroReferenceIsIncomplete(f: ReservationForm, toApiDate: string -> string)
    requires f.fkFacility == Some(0) && f.fkTherapist.Some? && f.reservationDate != ""
    ensures FormValid(f)
    ensures Submit(f, toApiDate) == Incomplete(IncompleteMessage)
    ensures Submit(InitialForm, toApiDate) == Touched
  {
  }

  /** Editing a reservation that names its facility and therapist and has a date in
      `dd/MM/yyyy` form fills in a form that passes the validators, so it can be
      submitted as it stands. */
  lemma EditedFormIsValid(res: Reservation)
    requires res.fkFacility.Some? && res.fkTherapist.Some?
    requires Truthy(res.reservationDate) && '/' in res.reservationDate.value
    ensures Edit(res).Some? && FormValid(Edit(res).value)
  {
  }

  datatype RemoveOutcome = NoRequest | Delete(id: int)

  /** `remove(reservation)`: nothing without a (truthy) id or without the user's
      confirmation; otherwise a delete of that id. */
  function Remove(res: Reservation, confirmed: bool): (r: RemoveOutcome)
    ensures r.Delete? <==> TruthyId(res.id) && confirmed
    ensures r.Delete? ==> r.id == res.id.value
  {
    if !TruthyId(res.id) then NoRequest
    else if !confirmed then NoRequest
    else Delete(res.id.value)
  }
}

=== FILE: role_guard.dfy ===
/** `RoleGuard.canActivate`: the access decision taken before entering a route
    that lists `RoleGuard` in `canActivate`. Whether a session is active and which
    role it claims come from `AuthService.isLoggedIn()` and `AuthService.getRole()`,
    whose token decoding is not part of this model; both are inputs here. */
module RoleGuard {
  import opened Wrappers
  import opened Roles

  /** A router URL as its list of path segments: `['/login']` is `["login"]`. */
  type Url = seq<string>

  const LoginUrl: Url := ["login"]
  const ForbiddenUrl: Url := ["forbidden"]

  /** `true` or the `UrlTree` the router is sent to instead. */
  datatype Decision = Allow | Redirect(target: Url)

  /** `route.data?.['roles'] ?? []`: a route without role data admits every role. */
  function AllowedRoles(data: Option<seq<Role>>): seq<Role> {
    data.GetOr([])
  }

  function RoleSet(roles: seq<Role>): set<Role> {
    set r | r in roles
  }

  /** The reference policy, stated on the SET of allowed roles: an empty set admits
      any active session; otherwise the session must claim a role in the set. */
  predicate Admits(allowed: set<Role>, role: Option<Role>) {
    allowed == {} || (role.Some? && role.value in allowed)
  }

  function CanActivate(loggedIn: bool, role: Option<Role>, data: Option<seq<Role>>): (d: Decision)
    ensures d == Allow || d == Redirect(LoginUrl) || d == Redirect(ForbiddenUrl)
    ensures !loggedIn ==> d == Redirect(LoginUrl)
    ensures loggedIn ==> (d == Allow <==> Admits(RoleSet(AllowedRoles(data)), role))
    ensures loggedIn && d != Allow ==> d == Redirect(ForbiddenUrl)
  {
    if !loggedIn then Redirect(LoginUrl)
    else
      var allowedRoles := AllowedRoles(data);
      if |allowedRoles| == 0 || (role.Some? && role.value in allowedRoles) then Allow
      else
        assert allowedRoles[0] in RoleSet(allowedRoles);
        Redirect(ForbiddenUrl)
  }

  /** With no active session the route's roles and the claimed role are never consulted. */
  lemma LoggedOutGoesToLogin(role: Option<Role>, data: Option<seq<Role>>)
    ensures CanActivate(false, role, data) == Redirect(LoginUrl)
  {
  }

  /** A route with no role data, or an empty role list, admits every active session,
      whatever role it claims. */
  lemma EmptyRolesIgnoreRole(role: Option<Role>, data: Option<seq<Role>>)
    requires data.None? || data == Some([])
    ensures CanActivate(true, role, data) == Allow
  {
  }

  /** An active session that claims no role is forbidden on every route with roles. */
  lemma NoRoleForbidden(roles: seq<Role>)
    requires |roles| > 0
    ensures CanActivate(true, None, Some(roles)) == Redirect(ForbiddenUrl)
  {
  }

  /** On a route with roles, an active session is admitted exactly when its role is listed. */
  lemma ListedRoleDecides(role: Role, roles: seq<Role>)
    requires |roles| > 0
    ensures CanActivate(true, Some(role), Some(roles)) == (if role in roles then Allow else Redirect(ForbiddenUrl))
  {
  }

  /** Only the set of listed roles matters, not their order or repetition. */
  lemma OrderIrrelevant(loggedIn: bool, role: Option<Role>, a: seq<Role>, b: seq<Role>)
    requires forall r :: r in a <==> r in b
    ensures CanActivate(loggedIn, role, Some(a)) == CanActivate(loggedIn, role, Some(b))
  {
    assert RoleSet(a) == RoleSet(b);
  }

  /** Widening a non-empty role list never revokes access. */
  lemma WideningKeepsAccess(loggedIn: bool, role: Option<Role>, a: seq<Role>, b: seq<Role>)
    requires |a| > 0
    requires forall r :: r in a ==> r in b
    requires CanActivate(loggedIn, role, Some(a)) == Allow
    ensures CanActivate(loggedIn, role, Some(b)) == Allow
  {
    assert a[0] in b;
  }
}

=== FILE: roles.dfy ===
/** The roles a session can claim (`UserRole` in the application). */
module Roles {

  datatype Role = Admin | Terapeuta | Paciente | Usuario

  /** The wire spelling of a role, as it appears in tokens, route data and user records. */
  function Name(r: Role): (s: string)
    ensures s != ""
  {
    match r
    case Admin => "ADMIN"
    case Terapeuta => "TERAPEUTA"
    case Paciente => "PACIENTE"
    case Usuario => "USUARIO"
  }

  /** Distinct roles have distinct spellings, so comparing names compares roles. */
  lemma NameInjective(a: Role, b: Role)
    ensures Name(a) == Name(b) <==> a == b
  {
  }
}

=== FILE: strings.dfy ===
/** The few JavaScript string primitives the components rely on: `trim`,
    `split` on one character, `join` and `padStart`. Strings are sequences of
    characters; JavaScript's UTF-16 code units are not modelled. */
module Strings {

  /** The characters `String.prototype.trim` removes: ECMAScript's WhiteSpace
      and LineTerminator productions (section 12.2 and 12.3 of ECMA-262). */
  predicate IsWhitespace(c: char) {
    || c == '\t' || c == '\n' || c == '\U{000B}' || c == '\U{000C}' || c == '\r' || c == ' '
    || c == '\U{00A0}' || c == '\U{1680}' || ('\U{2000}' <= c <= '\U{200A}')
    || c == '\U{2028}' || c == '\U{2029}' || c == '\U{202F}' || c == '\U{205F}'
    || c == '\U{3000}' || c == '\U{FEFF}'
  }

  predicate AllWhitespace(s: string) {
    forall i :: 0 <= i < |s| ==> IsWhitespace(s[i])
  }

  /** Neither end of `s` is whitespace: what every result of `Trim` satisfies. */
  predicate Trimmed(s: string) {
    s == [] || (!IsWhitespace(s[0]) && !IsWhitespace(s[|s| - 1]))
  }

  /** `s.trimStart()`: drops the longest all-whitespace prefix. */
  function TrimStart(s: string): (r: string)
    ensures |r| <= |s| && r == s[|s| - |r|..]
    ensures AllWhitespace(s[..|s| - |r|])
    ensures r == [] || !IsWhitespace(r[0])
  {
    if |s| > 0 && IsWhitespace(s[0]) then
      var r := TrimStart(s[1..]);
      assert s[..|s| - |r|] == [s[0]] + s[1..][..|s[1..]| - |r|];
      r
    else s
  }

  /** `s.trimEnd()`: drops the longest all-whitespace suffix. */
  function TrimEnd(s: string): (r: string)
    ensures |r| <= |s| && r == s[..|r|]
    ensures AllWhitespace(s[|r|..])
    ensures r == [] || !IsWhitespace(r[|r| - 1])
  {
    if |s| > 0 && IsWhitespace(s[|s| - 1]) then
      var r := TrimEnd(s[..|s| - 1]);
      assert s[|r|..] == s[..|s| - 1][|r|..] + [s[|s| - 1]];
      r
    else s
  }

  /** `r` occurs in `s` at offset `k` with only whitespace before and after it. */
  predicate BlankFramed(s: string, k: int, r: string) {
    0 <= k <= |s| - |r| && r == s[k..k + |r|]
    && AllWhitespace(s[..k]) && AllWhitespace(s[k + |r|..])
  }

  /** `s.trim()`: the slice of `s` left after removing whitespace at both ends. */
  function Trim(s: string): (r: string)
    ensures Trimmed(r)
    ensures |r| <= |s|
    ensures exists k :: BlankFramed(s, k, r)
    ensures r == [] <==> AllWhitespace(s)
  {
    var t := TrimStart(s);
    var r := TrimEnd(t);
    SliceOfSlice(s, t, r);
    var k := |s| - |t|;
    assert BlankFramed(s, k, r);
    r
  }

  /** The bookkeeping behind `Trim`'s contract: `r` is `t` minus a blank suffix, and
      `t` is `s` minus a blank prefix. */
  lemma SliceOfSlice(s: string, t: string, r: string)
    requires |t| <= |s| && t == s[|s| - |t|..] && AllWhitespace(s[..|s| - |t|])
    requires t == [] || !IsWhitespace(t[0])
    requires |r| <= |t| && r == t[..|r|] && AllWhitespace(t[|r|..])
    ensures var k := |s| - |t|;
            r == s[k..k + |r|] && AllWhitespace(s[..k]) && AllWhitespace(s[k + |r|..])
    ensures r == [] <==> AllWhitespace(s)
  {
    var k := |s| - |t|;
    assert s[k + |r|..] == t[|r|..];
    if r == [] {
      assert s == s[..k] + t[|r|..];
      AllWhitespaceConcat(s[..k], t[|r|..]);
    } else {
      assert s[k] == t[0];
    }
  }

  lemma AllWhitespaceConcat(a: string, b: string)
    ensures AllWhitespace(a + b) <==> AllWhitespace(a) && AllWhitespace(b)
  {
    var s := a + b;
    if AllWhitespace(a) && AllWhitespace(b) {
      forall i | 0 <= i < |s| ensures IsWhitespace(s[i]) {
        if i < |a| { assert s[i] == a[i]; } else { assert s[i] == b[i - |a|]; }
      }
    }
    if AllWhitespace(s) {
      forall i | 0 <= i < |a| ensures IsWhitespace(a[i]) { assert a[i] == s[i]; }
      forall i | 0 <= i < |b| ensures IsWhitespace(b[i]) { assert b[i] == s[|a| + i]; }
    }
  }

  /** Trimming twice trims nothing more. */
  lemma TrimIdempotent(s: string)
    ensures Trim(Trim(s)) == Trim(s)
  {
    TrimOfTrimmed(Trim(s));
  }

  /** A string whose ends are not whitespace is left as it is. */
  lemma TrimOfTrimmed(s: string)
    requires Trimmed(s)
    ensures Trim(s) == s
  {
    assert TrimStart(s) == s;
  }

  /** `"a" + " " + "b"` is blank exactly when both halves are blank. */
  lemma AllWhitespaceJoin(a: string, b: string)
    ensures AllWhitespace(a + " " + b) <==> AllWhitespace(a) && AllWhitespace(b)
  {
    var s := a + " " + b;
    if AllWhitespace(s) {
      forall i | 0 <= i < |a| ensures IsWhitespace(a[i]) { assert a[i] == s[i]; }
      forall i | 0 <= i < |b| ensures IsWhitespace(b[i]) { assert b[i] == s[|a| + 1 + i]; }
    }
  }

  /** Index of the first occurrence of `c` in `s`. */
  function IndexOf(s: string, c: char): (i: nat)
    requires c in s
    ensures i < |s| && s[i] == c && c !in s[..i]
  {
    if s[0] == c then 0
    else
      var j := IndexOf(s[1..], c);
      assert s[..j + 1] == [s[0]] + s[1..][..j];
      j + 1
  }

  /** `parts.join(sep)` for a one-character separator: the pieces in order with one
      separator between neighbours; `[].join(sep)` is `""`. */
  function Join(parts: seq<string>, sep: char): (r: string)
    ensures |parts| == 0 ==> r == ""
    ensures |parts| >= 1 ==> |parts[0]| <= |r| && r[..|parts[0]|] == parts[0]
    ensures |parts| >= 1 && (forall i :: 0 <= i < |parts| ==> sep !in parts[i]) ==>
              Count(r, sep) == |parts| - 1
    decreases |parts|
  {
    if |parts| == 0 then ""
    else
      CountAbsent(parts[0], sep);
      if |parts| == 1 then parts[0]
      else
        var rest := Join(parts[1..], sep);
        assert forall i :: 1 <= i < |parts| ==> parts[i] == parts[1..][i - 1];
        CountConcat(parts[0], [sep] + rest, sep);
        CountConcat([sep], rest, sep);
        assert Count([sep], sep) == 1;
        assert parts[0] + [sep] + rest == parts[0] + ([sep] + rest);
        parts[0] + [sep] + rest
  }

  lemma JoinPair(a: string, b: string, sep: char)
    ensures Join([a, b], sep) == a + [sep] + b
  {
    assert [a, b][1..] == [b];
  }

  /** `s.split(sep)` for a one-character separator: the maximal `sep`-free pieces,
      which `Join` puts back together. */
  function Split(s: string, sep: char): (parts: seq<string>)
    ensures |parts| >= 1
    ensures forall i :: 0 <= i < |parts| ==> sep !in parts[i]
    ensures Join(parts, sep) == s
    decreases |s|
  {
    if sep !in s then [s]
    else
      var i := IndexOf(s, sep);
      var rest := Split(s[i + 1..], sep);
      assert s == s[..i] + [sep] + s[i + 1..];
      [s[..i]] + rest
  }

  /** Splitting undoes joining whenever no piece contains the separator. */
  lemma {:induction false} SplitJoin(parts: seq<string>, sep: char)
    requires |parts| >= 1
    requires forall i :: 0 <= i < |parts| ==> sep !in parts[i]
    ensures Split(Join(parts, sep), sep) == parts
    decreases |parts|
  {
    if |parts| > 1 {
      var tail := Join(parts[1..], sep);
      assert Join(parts, sep) == parts[0] + [sep] + tail;
      IndexOfFirstSeparator(parts[0], sep, tail);
      SplitAfterFirst(parts[0], sep, tail);
      SplitJoin(parts[1..], sep);
    }
  }

  /** One step of `Split`: the piece before the first separator, then the rest split. */
  lemma SplitAfterFirst(a: string, sep: char, b: string)
    requires sep !in a
    requires sep in a + [sep] + b && IndexOf(a + [sep] + b, sep) == |a|
    ensures Split(a + [sep] + b, sep) == [a] + Split(b, sep)
  {
    var s := a + [sep] + b;
    assert s[..|a|] == a;
    assert s[|a| + 1..] == b;
  }

  /** The first separator of `a + [sep] + b` is the one after `a` when `a` has none. */
  lemma {:induction false} IndexOfFirstSeparator(a: string, sep: char, b: string)
    requires sep !in a
    ensures sep in a + [sep] + b
    ensures IndexOf(a + [sep] + b, sep) == |a|
    decreases |a|
  {
    var s := a + [sep] + b;
    assert s[|a|] == sep;
    if a != [] {
      assert s[0] == a[0];
      assert s[1..] == a[1..] + [sep] + b;
      IndexOfFirstSeparator(a[1..], sep, b);
    }
  }

  /** Number of occurrences of `c` in `s`. */
  function Count(s: string, c: char): nat {
    if s == [] then 0 else (if s[0] == c then 1 else 0) + Count(s[1..], c)
  }

  lemma {:induction false} CountConcat(a: string, b: string, c: char)
    ensures Count(a + b, c) == Count(a, c) + Count(b, c)
    decreases |a|
  {
    if a == [] {
      assert a + b == b;
    } else {
      assert (a + b)[0] == a[0];
      assert (a + b)[1..] == a[1..] + b;
      CountConcat(a[1..], b, c);
    }
  }

  lemma {:induction false} CountAbsent(s: string, c: char)
    ensures Count(s, c) == 0 <==> c !in s
    decreases |s|
  {
    if s != [] {
      CountAbsent(s[1..], c);
      assert c in s <==> s[0] == c || c in s[1..];
    }
  }

  /** Splitting yields one more piece than there are separators. */
  lemma {:induction false} SplitCount(s: string, sep: char)
    ensures |Split(s, sep)| == Count(s, sep) + 1
    decreases |s|
  {
    if sep !in s {
      CountAbsent(s, sep);
    } else {
      var i := IndexOf(s, sep);
      assert s == s[..i] + ([sep] + s[i + 1..]);
      CountConcat(s[..i], [sep] + s[i + 1..], sep);
      CountConcat([sep], s[i + 1..], sep);
      CountAbsent(s[..i], sep);
      assert Count([sep], sep) == 1;
      SplitCount(s[i + 1..], sep);
    }
  }

  /** `s.padStart(width, [fill])`: left-pads with `fill` up to `width` characters,
      never truncating. */
  function PadStart(s: string, width: nat, fill: char): (r: string)
    ensures |r| == if |s| >= width then |s| else width
    ensures r[|r| - |s|..] == s
    ensures forall i :: 0 <= i < |r| - |s| ==> r[i] == fill
  {
    if |s| >= width then s else seq(width - |s|, _ => fill) + s
  }
}

=== FILE: token_service.dfy ===
/** `TokenService`: the session token held in memory and mirrored into the
    browser's `localStorage` under one fixed key. `localStorage` is modelled as a
    string-to-string map that the service only touches when running in a browser
    (`typeof window !== 'undefined'`); outside a browser it is never read or written. */
module TokenService {
  import opened Wrappers

  const StorageKey: string := "psico_app_token"

  /** The service's state together with the storage it mirrors into. */
  datatype TokenState = TokenState(isBrowser: bool, token: Option<string>, storage: map<string, string>)

  /** `localStorage.getItem(key)`: `null` when the key is absent. */
  function GetItem(storage: map<string, string>, key: string): Option<string> {
    if key in storage then Some(storage[key]) else None
  }

  /** The mirroring invariant: in a browser the stored entry is the in-memory token. */
  predicate Mirrored(s: TokenState) {
    s.isBrowser ==> GetItem(s.storage, StorageKey) == s.token
  }

  /** Construction: the token is seeded from storage in a browser and is `null` elsewhere;
      nothing is written. */
  function Init(isBrowser: bool, storage: map<string, string>): (s: TokenState)
    ensures s.isBrowser == isBrowser && s.storage == storage
    ensures Mirrored(s)
    ensures !isBrowser ==> s.token == None
  {
    TokenState(isBrowser, if isBrowser then GetItem(storage, StorageKey) else None, storage)
  }

  /** `getToken()` reads the in-memory signal, never storage; while the state is
      mirrored, in a browser that is the stored entry. */
  function GetToken(s: TokenState): (t: Option<string>)
    ensures s.isBrowser && Mirrored(s) ==> t == GetItem(s.storage, StorageKey)
  {
    s.token
  }

  /** `!!this.getToken()`: an empty token is no session. */
  function HasToken(s: TokenState): (b: bool)
    ensures b ==> GetToken(s).Some?
    ensures GetToken(s) == Some("") ==> !b
    ensures GetToken(s).Some? && GetToken(s).value != "" ==> b
    ensures s.isBrowser && Mirrored(s) ==> (b <==> StorageKey in s.storage && s.storage[StorageKey] != "")
  {
    Truthy(GetToken(s))
  }

  function SetToken(s: TokenState, t: string): (s': TokenState)
    ensures GetToken(s') == Some(t)
    ensures HasToken(s') <==> t != ""
    ensures s'.isBrowser == s.isBrowser
    ensures s.isBrowser ==> GetItem(s'.storage, StorageKey) == Some(t)
    ensures !s.isBrowser ==> s'.storage == s.storage
    ensures forall k :: k != StorageKey ==> GetItem(s'.storage, k) == GetItem(s.storage, k)
    ensures Mirrored(s')
  {
    var storage := if s.isBrowser then s.storage[StorageKey := t] else s.storage;
    TokenState(s.isBrowser, Some(t), storage)
  }

  function ClearToken(s: TokenState): (s': TokenState)
    ensures GetToken(s') == None && !HasToken(s')
    ensures s'.isBrowser == s.isBrowser
    ensures s.isBrowser ==> StorageKey !in s'.storage
    ensures !s.isBrowser ==> s'.storage == s.storage
    ensures forall k :: k != StorageKey ==> GetItem(s'.storage, k) == GetItem(s.storage, k)
    ensures Mirrored(s')
  {
    var storage := if s.isBrowser then s.storage - {StorageKey} else s.storage;
    TokenState(s.isBrowser, None, storage)
  }

  /** Clearing twice is clearing once. */
  lemma ClearIdempotent(s: TokenState)
    ensures ClearToken(ClearToken(s)) == ClearToken(s)
  {
  }

  /** The later of two writes wins, in memory and in storage. */
  lemma LastSetWins(s: TokenState, a: string, b: string)
    ensures SetToken(SetToken(s, a), b) == SetToken(s, b)
  {
  }

  /** A write followed by a clear leaves no trace of the write. */
  lemma ClearErasesSet(s: TokenState, t: string)
    ensures ClearToken(SetToken(s, t)) == ClearToken(s)
  {
  }

  /** The service's mutators, for stating what a sequence of calls does. */
  datatype Op = Set(token: string) | Clear

  function Apply(s: TokenState, op: Op): TokenState {
    match op
    case Set(t) => SetToken(s, t)
    case Clear => ClearToken(s)
  }

  function Run(s: TokenState, ops: seq<Op>): TokenState
    decreases |ops|
  {
    if ops == [] then s else Run(Apply(s, ops[0]), ops[1..])
  }

  /** Without writes from outside the service, storage and memory never disagree:
      seeded in agreement and kept so by every call. */
  lemma {:induction false} MirroredForever(isBrowser: bool, storage: map<string, string>, ops: seq<Op>)
    ensures Mirrored(Run(Init(isBrowser, storage), ops))
  {
    RunKeepsMirrored(Init(isBrowser, storage), ops);
  }

  lemma {:induction false} RunKeepsMirrored(s: TokenState, ops: seq<Op>)
    requires Mirrored(s)
    ensures Mirrored(Run(s, ops))
    decreases |ops|
  {
    if ops != [] {
      RunKeepsMirrored(Apply(s, ops[0]), ops[1..]);
    }
  }

  /** Outside a browser no sequence of calls touches storage. */
  lemma {:induction false} RunOutsideBrowser(s: TokenState, ops: seq<Op>)
    requires !s.isBrowser
    ensures Run(s, ops).storage == s.storage && !Run(s, ops).isBrowser
    decreases |ops|
  {
    if ops != [] {
      RunOutsideBrowser(Apply(s, ops[0]), ops[1..]);
    }
  }

  /** A session survives a reload exactly when storage holds a token: a new
      service seeded from the storage an old one left behind sees the same token. */
  lemma {:induction false} ReloadRestoresToken(s: TokenState, ops: seq<Op>)
    requires s.isBrowser && Mirrored(s)
    ensures Init(true, Run(s, ops).storage).token == Run(s, ops).token
  {
    RunKeepsMirrored(s, ops);
    RunStaysInBrowser(s, ops);
  }

  lemma {:induction false} RunStaysInBrowser(s: TokenState, ops: seq<Op>)
    ensures Run(s, ops).isBrowser == s.isBrowser
    decreases |ops|
  {
    if ops != [] {
      RunStaysInBrowser(Apply(s, ops[0]), ops[1..]);
    }
  }
}

=== FILE: users.dfy ===
/** `UsersComponent`: how a user record from the backend is displayed, and how a
    list of users is given a fallback role. The `User` interface is open (`[key:
    string]: unknown`); the component reads a few alternative field names, and each
    is a field here. Their values are taken at the types the component casts them to.
    `enabled`, the last operand of `displayActive`'s chain, keeps `null` apart from
    `undefined`, because that chain's result is compared with `=== undefined`. */
module Users {
  import opened Wrappers
  import opened Strings
  import opened Roles

  /** `number | string`, the type of `id` and of a tracking key. */
  datatype Key = Num(n: int) | Text(s: string)

  datatype User = User(
    id: Option<Key>,
    username: Option<string>,
    firstName: Option<string>,
    lastName: Option<string>,
    fullName: Option<string>,
    docType: Option<string>,
    documentType: Option<string>,
    document: Option<string>,
    documentNumber: Option<string>,
    identification: Option<string>,
    email: Option<string>,
    mail: Option<string>,
    emailAddress: Option<string>,
    telephone: Option<string>,
    phone: Option<string>,
    mobile: Option<string>,
    role: Option<string>,
    isActive: Option<bool>,
    active: Option<bool>,
    enabled: Nullable<bool>)

  const NoName: string := "Sin nombre"
  const Dash: string := "—"

  /** The name-based fallback: an absent name counts as empty. */
  function NamesOf(u: User): string {
    u.firstName.GetOr("") + " " + u.lastName.GetOr("")
  }

  /** `displayName`: the trimmed `fullName` when the record has one, else the trimmed
      first and last names; if that is blank, the username; else a placeholder. A
      present but blank `fullName` does not fall back to the names. */
  function DisplayName(u: User): (r: string)
    ensures r != ""
    ensures u.fullName.Some? && !AllWhitespace(u.fullName.value) ==> r == Trim(u.fullName.value)
    ensures u.fullName.None? && !AllWhitespace(NamesOf(u)) ==> r == Trim(NamesOf(u))
    ensures (if u.fullName.Some? then AllWhitespace(u.fullName.value) else AllWhitespace(NamesOf(u))) ==>
              r == (if Truthy(u.username) then u.username.value else NoName)
  {
    var full := Trim(u.fullName.GetOr(Trim(NamesOf(u))));
    FullNameFacts(u);
    if full != "" then full
    else if Truthy(u.username) then u.username.value
    else NoName
  }

  /** The trimmed name before the username fallback, case by case. */
  lemma FullNameFacts(u: User)
    ensures var full := Trim(u.fullName.GetOr(Trim(NamesOf(u))));
            && (u.fullName.Some? ==> full == Trim(u.fullName.value))
            && (u.fullName.None? ==> full == Trim(NamesOf(u)))
            && (full == "" <==> if u.fullName.Some? then AllWhitespace(u.fullName.value) else AllWhitespace(NamesOf(u)))
  {
    TrimFallback(u.fullName, NamesOf(u));
  }

  lemma TrimFallback(full: Option<string>, names: string)
    ensures full.Some? ==> Trim(full.GetOr(Trim(names))) == Trim(full.value)
    ensures full.None? ==> Trim(full.GetOr(Trim(names))) == Trim(names)
    ensures Trim(full.GetOr(Trim(names))) == "" <==> AllWhitespace(full.GetOr(names))
  {
    if full.None? {
      TrimIdempotent(names);
    }
  }

  /** The name fallback is blank exactly when both names are blank or absent. */
  lemma NamesBlank(u: User)
    ensures AllWhitespace(NamesOf(u)) <==> AllWhitespace(u.firstName.GetOr("")) && AllWhitespace(u.lastName.GetOr(""))
  {
    AllWhitespaceJoin(u.firstName.GetOr(""), u.lastName.GetOr(""));
  }

  function DocTypeOf(u: User): Option<string> {
    u.docType.Or(u.documentType)
  }

  function DocumentOf(u: User): Option<string> {
    u.document.Or(u.documentNumber).Or(u.identification)
  }

  /** `[a, b].filter(Boolean)` over optional strings. */
  function TruthyParts(opts: seq<Option<string>>): (parts: seq<string>)
    ensures |parts| <= |opts|
    ensures forall i :: 0 <= i < |parts| ==> parts[i] != ""
    ensures |parts| == 0 <==> forall i :: 0 <= i < |opts| ==> !Truthy(opts[i])
  {
    if opts == [] then []
    else
      var rest := TruthyParts(opts[1..]);
      assert forall i :: 1 <= i < |opts| ==> opts[i] == opts[1..][i - 1];
      if Truthy(opts[0]) then [opts[0].value] + rest else rest
  }

  /** Each `parts[k]` is the value of the truthy entry at position `idx[k]`. */
  predicate Picks(opts: seq<Option<string>>, parts: seq<string>, idx: seq<nat>) {
    && |idx| == |parts|
    && forall k :: 0 <= k < |idx| ==> idx[k] < |opts| && Truthy(opts[idx[k]]) && parts[k] == opts[idx[k]].value
  }

  predicate Increasing(idx: seq<nat>) {
    forall k :: 0 < k < |idx| ==> idx[k - 1] < idx[k]
  }

  /** Every truthy position of `opts` is listed in `idx`. */
  predicate CoversTruthy(opts: seq<Option<string>>, idx: seq<nat>) {
    forall j :: 0 <= j < |opts| && Truthy(opts[j]) ==> j in idx
  }

  /** `idx` lists, in increasing order, exactly the positions of the truthy entries
      of `opts`, and `parts` holds their values in that order. */
  predicate KeepsTruthyInOrder(opts: seq<Option<string>>, parts: seq<string>, idx: seq<nat>) {
    Picks(opts, parts, idx) && Increasing(idx) && CoversTruthy(opts, idx)
  }

  /** Every position moved one place on. */
  function Shift(idx: seq<nat>): (r: seq<nat>)
    ensures |r| == |idx|
    ensures forall k :: 0 <= k < |r| ==> r[k] == idx[k] + 1
  {
    seq(|idx|, k requires 0 <= k < |idx| => idx[k] + 1)
  }

  /** The positions of the truthy entries of `opts`, in increasing order. */
  function TruthyIndices(opts: seq<Option<string>>): seq<nat> {
    if opts == [] then []
    else
      var rest := Shift(TruthyIndices(opts[1..]));
      if Truthy(opts[0]) then [0] + rest else rest
  }

  lemma PicksShift(o: Option<string>, tail: seq<Option<string>>, parts: seq<string>, idx: seq<nat>)
    requires Picks(tail, parts, idx)
    ensures Picks([o] + tail, parts, Shift(idx))
  {
    var opts, sh := [o] + tail, Shift(idx);
    forall k | 0 <= k < |sh|
      ensures sh[k] < |opts| && Truthy(opts[sh[k]]) && parts[k] == opts[sh[k]].value
    {
      assert opts[sh[k]] == tail[idx[k]];
    }
  }

  lemma PicksCons(o: Option<string>, tail: seq<Option<string>>, parts: seq<string>, idx: seq<nat>)
    requires Truthy(o) && Picks([o] + tail, parts, Shift(idx))
    ensures Picks([o] + tail, [o.value] + parts, [0] + Shift(idx))
  {
    var opts, sh := [o] + tail, Shift(idx);
    var all, kept := [0] + sh, [o.value] + parts;
    forall k | 0 <= k < |all|
      ensures all[k] < |opts| && Truthy(opts[all[k]]) && kept[k] == opts[all[k]].value
    {
      if k > 0 {
        assert all[k] == sh[k - 1] && kept[k] == parts[k - 1];
      }
    }
  }

  lemma IncreasingShift(idx: seq<nat>, first: bool)
    requires Increasing(idx)
    ensures Increasing(Shift(idx))
    ensures first ==> Increasing([0] + Shift(idx))
  {
    var sh := Shift(idx);
    forall k | 0 < k < |sh|
      ensures sh[k - 1] < sh[k]
    {
      assert sh[k - 1] == idx[k - 1] + 1;
    }
    if first {
      var all := [0] + sh;
      forall k | 0 < k < |all|
        ensures all[k - 1] < all[k]
      {
        assert all[k] == sh[k - 1];
      }
    }
  }

  lemma CoversShift(o: Option<string>, tail: seq<Option<string>>, idx: seq<nat>)
    requires CoversTruthy(tail, idx)
    ensures Truthy(o) ==> CoversTruthy([o] + tail, [0] + Shift(idx))
    ensures !Truthy(o) ==> CoversTruthy([o] + tail, Shift(idx))
  {
    var opts, sh := [o] + tail, Shift(idx);
    forall j | 1 <= j < |opts| && Truthy(opts[j])
      ensures j in sh
    {
      assert tail[j - 1] == opts[j];
      assert j - 1 in idx;
      var k :| 0 <= k < |idx| && idx[k] == j - 1;
      assert sh[k] == j;
    }
    assert forall j :: 0 <= j < |opts| && Truthy(opts[j]) && j != 0 ==> j in sh;
  }

  /** `filter(Boolean)` keeps exactly the truthy entries, each once, in their order. */
  lemma {:induction false} TruthyPartsInOrder(opts: seq<Option<string>>)
    ensures KeepsTruthyInOrder(opts, TruthyParts(opts), TruthyIndices(opts))
  {
    if opts != [] {
      var o, tail := opts[0], opts[1..];
      assert opts == [o] + tail;
      TruthyPartsInOrder(tail);
      var parts, idx := TruthyParts(tail), TruthyIndices(tail);
      PicksShift(o, tail, parts, idx);
      IncreasingShift(idx, Truthy(o));
      CoversShift(o, tail, idx);
      if Truthy(o) {
        PicksCons(o, tail, parts, idx);
      }
    }
  }

  lemma TruthyPairParts(a: Option<string>, b: Option<string>)
    ensures TruthyParts([a, b]) == (if Truthy(a) then [a.value] else []) + (if Truthy(b) then [b.value] else [])
  {
    assert [a, b][1..] == [b];
    assert [b][1..] == [];
  }

  /** `displayDocument`: the document type and number that are present and non-empty,
      separated by one space; a dash when there are none. */
  function DisplayDocument(u: User): (r: string)
    ensures r != ""
    ensures !Truthy(DocTypeOf(u)) && !Truthy(DocumentOf(u)) ==> r == Dash
    ensures Truthy(DocTypeOf(u)) && Truthy(DocumentOf(u)) ==> r == DocTypeOf(u).value + " " + DocumentOf(u).value
    ensures Truthy(DocTypeOf(u)) && !Truthy(DocumentOf(u)) ==> r == DocTypeOf(u).value
    ensures !Truthy(DocTypeOf(u)) && Truthy(DocumentOf(u)) ==> r == DocumentOf(u).value
  {
    var docType := DocTypeOf(u);
    var document := DocumentOf(u);
    if !Truthy(docType) && !Truthy(document) then Dash
    else
      var parts := TruthyParts([docType, document]);
      TruthyPairParts(docType, document);
      JoinPair(docType.GetOr(""), document.GetOr(""), ' ');
      Join(parts, ' ')
  }

  /** `displayEmail`: `email ?? mail ?? emailAddress ?? '—'`. */
  function DisplayEmail(u: User): (r: string)
    ensures u.email.Some? ==> r == u.email.value
    ensures u.email.None? && u.mail.Some? ==> r == u.mail.value
    ensures u.email.None? && u.mail.None? ==> r == u.emailAddress.GetOr(Dash)
  {
    u.email.Or(u.mail).Or(u.emailAddress).GetOr(Dash)
  }

  /** `displayPhone`: `telephone ?? phone ?? mobile ?? '—'`. */
  function DisplayPhone(u: User): (r: string)
    ensures u.telephone.Some? ==> r == u.telephone.value
    ensures u.telephone.None? && u.phone.Some? ==> r == u.phone.value
    ensures u.telephone.None? && u.phone.None? ==> r == u.mobile.GetOr(Dash)
  {
    u.telephone.Or(u.phone).Or(u.mobile).GetOr(Dash)
  }

  /** The alias chains of `displayEmail` and `displayPhone` read the first alias that
      is present, in the order written. */
  lemma AliasChainsPickFirstPresent(u: User)
    ensures DisplayEmail(u) == FirstPresent([u.email, u.mail, u.emailAddress]).GetOr(Dash)
    ensures DisplayPhone(u) == FirstPresent([u.telephone, u.phone, u.mobile]).GetOr(Dash)
  {
    OrChainIsFirstPresent(u.email, u.mail, u.emailAddress);
    OrChainIsFirstPresent(u.telephone, u.phone, u.mobile);
  }

  /** An optional role as the optional text stored in a record. */
  function RoleText(role: Option<Role>): Option<string> {
    match role
    case Some(x) => Some(Name(x))
    case None => None
  }

  /** `displayRole`: the record's own role, else the group's fallback role, else a dash. */
  function DisplayRole(u: User, fallback: Option<Role>): (r: string)
    ensures u.role.Some? ==> r == u.role.value
    ensures u.role.None? && fallback.Some? ==> r == Name(fallback.value)
    ensures u.role.None? && fallback.None? ==> r == Dash
  {
    u.role.Or(RoleText(fallback)).GetOr(Dash)
  }

  /** `displayActive`: the first of `isActive` and `active` that is present decides;
      when neither is, the chain yields `enabled` itself, and only an `undefined` one
      passes the `=== undefined` test that gives a dash. A `null` one is falsy. */
  function DisplayActive(u: User): (r: string)
    ensures r == Dash <==> u.isActive.None? && u.active.None? && u.enabled.Undefined?
    ensures u.isActive.Some? ==> r == (if u.isActive.value then "Sí" else "No")
    ensures u.isActive.None? && u.active.Some? ==> r == (if u.active.value then "Sí" else "No")
    ensures u.isActive.None? && u.active.None? && u.enabled.Null? ==> r == "No"
    ensures u.isActive.None? && u.active.None? && u.enabled.Value? ==> r == (if u.enabled.value then "Sí" else "No")
  {
    match u.isActive.Or(u.active).Coalesce(u.enabled)
    case Undefined => Dash
    case Null => "No"
    case Value(active) => if active then "Sí" else "No"
  }

  /** `trackByUser`: `id ?? username ?? email ?? index`. */
  function TrackByUser(index: int, u: User): (k: Key)
    ensures u.id.Some? ==> k == u.id.value
    ensures u.id.None? && u.username.Some? ==> k == Text(u.username.value)
    ensures u.id.None? && u.username.None? && u.email.Some? ==> k == Text(u.email.value)
    ensures u.id.None? && u.username.None? && u.email.None? ==> k == Num(index)
  {
    match u.id
    case Some(id) => id
    case None =>
      match u.username.Or(u.email)
      case Some(s) => Text(s)
      case None => Num(index)
  }

  /** A record with an id, username or email keeps its tracking key wherever it appears
      in the list. */
  lemma TrackingKeyIgnoresPosition(i: int, j: int, u: User)
    requires u.id.Some? || u.username.Some? || u.email.Some?
    ensures TrackByUser(i, u) == TrackByUser(j, u)
  {
  }

  /** One record given the group's fallback role. */
  function Decorate(u: User, fallback: Option<Role>): User {
    u.(role := u.role.Or(RoleText(fallback)))
  }

  /** `decorateUsers`: the same records in the same order, each without a role given
      the fallback role; no other field changes. */
  function DecorateUsers(users: seq<User>, fallback: Option<Role>): (r: seq<User>)
    ensures |r| == |users|
    ensures forall i :: 0 <= i < |users| ==>
              && r[i].role == (if users[i].role.Some? then users[i].role else RoleText(fallback))
              && r[i].(role := users[i].role) == users[i]
  {
    if users == [] then []
    else
      var rest := DecorateUsers(users[1..], fallback);
      assert forall i :: 1 <= i < |users| ==> users[i] == users[1..][i - 1];
      [Decorate(users[0], fallback)] + rest
  }

  /** Decorating twice with the same fallback is decorating once. */
  lemma DecorateIdempotent(users: seq<User>, fallback: Option<Role>)
    ensures DecorateUsers(DecorateUsers(users, fallback), fallback) == DecorateUsers(users, fallback)
  {
    var once := DecorateUsers(users, fallback);
    var twice := DecorateUsers(once, fallback);
    forall i | 0 <= i < |users| ensures twice[i] == once[i] {
      assert twice[i].(role := once[i].role) == once[i];
    }
  }

  /** Decoration touches only the role: every other column of the table shows the
      same text for the decorated record as for the original. */
  lemma DecorationKeepsOtherColumns(users: seq<User>, fallback: Option<Role>, i: int)
    requires 0 <= i < |users|
    ensures var d := DecorateUsers(users, fallback)[i];
            && DisplayActive(d) == DisplayActive(users[i])
            && DisplayName(d) == DisplayName(users[i])
            && DisplayDocument(d) == DisplayDocument(users[i])
            && DisplayEmail(d) == DisplayEmail(users[i])
            && DisplayPhone(d) == DisplayPhone(users[i])
  {
    var d := DecorateUsers(users, fallback)[i];
    assert d == users[i].(role := d.role);
    RoleKeepsContactColumns(users[i], d.role);
    RoleKeepsIdentityColumns(users[i], d.role);
  }

  lemma RoleKeepsContactColumns(u: User, role: Option<string>)
    ensures var d := u.(role := role);
            && DisplayActive(d) == DisplayActive(u)
            && DisplayEmail(d) == DisplayEmail(u)
            && DisplayPhone(d) == DisplayPhone(u)
  {
  }

  lemma RoleKeepsIdentityColumns(u: User, role: Option<string>)
    ensures var d := u.(role := role);
            DisplayName(d) == DisplayName(u) && DisplayDocument(d) == DisplayDocument(u)
  {
    var d := u.(role := role);
    assert NamesOf(d) == NamesOf(u) && DocTypeOf(d) == DocTypeOf(u) && DocumentOf(d) == DocumentOf(u);
  }

  /** A decorated record shows, with no fallback, the role the original shows with one. */
  lemma DecoratedRoleDisplay(users: seq<User>, fallback: Option<Role>, i: int)
    requires 0 <= i < |users|
    ensures DisplayRole(DecorateUsers(users, fallback)[i], None) == DisplayRole(users[i], fallback)
  {
  }

  /** Without a fallback role the list is returned unchanged. */
  lemma DecorateWithoutFallback(users: seq<User>)
    ensures DecorateUsers(users, None) == users
  {
    var r := DecorateUsers(users, None);
    forall i | 0 <= i < |users| ensures r[i] == users[i] {
      assert r[i].(role := users[i].role) == users[i];
    }
  }
}

=== FILE: wrappers.dfy ===
/** Optional values. TypeScript's `null` and `undefined` are both modelled as `None`
    wherever the code tests them with `??`, `?.` or truthiness, which treat the two
    alike; `Nullable` keeps them apart where the code compares with `=== undefined`. */
module Wrappers {

  datatype Option<+T> = None | Some(value: T) {

    /** The value, or `default` when absent. */
    function GetOr(default: T): T {
      match this
      case Some(v) => v
      case None => default
    }

    /** Nullish coalescing: `this ?? other`. */
    function Or(other: Option<T>): Option<T> {
      match this
      case Some(_) => this
      case None => other
    }

    /** `this ?? last` where `last` is the chain's final operand: a nullish chain
        yields that operand itself, `null` or `undefined` as it is. */
    function Coalesce(last: Nullable<T>): Nullable<T> {
      match this
      case Some(v) => Value(v)
      case None => last
    }
  }

  /** A value that may be `undefined`, `null` or present, for the places where the
      code tells `null` and `undefined` apart. */
  datatype Nullable<+T> = Undefined | Null | Value(value: T)

  /** The first present value of a `??` chain, `opts[0] ?? opts[1] ?? ...`. */
  function FirstPresent<T>(opts: seq<Option<T>>): (r: Option<T>)
    ensures r.None? <==> forall i :: 0 <= i < |opts| ==> opts[i].None?
    ensures r.Some? ==> exists i :: 0 <= i < |opts| && opts[i] == r && forall j :: 0 <= j < i ==> opts[j].None?
  {
    if |opts| == 0 then None
    else if opts[0].Some? then opts[0]
    else
      var rest := FirstPresent(opts[1..]);
      assert rest.Some? ==> exists i :: 0 < i < |opts| && opts[i] == rest && forall j :: 0 <= j < i ==> opts[j].None? by {
        if rest.Some? {
          var k :| 0 <= k < |opts[1..]| && opts[1..][k] == rest && forall j :: 0 <= j < k ==> opts[1..][j].None?;
          assert opts[k + 1] == rest;
          assert forall j :: 0 <= j < k + 1 ==> opts[j].None? by {
            forall j | 0 <= j < k + 1 ensures opts[j].None? {
              if j > 0 { assert opts[j] == opts[1..][j - 1]; }
            }
          }
        }
      }
      rest
  }

  /** A `??` chain of three picks the first present value. */
  lemma OrChainIsFirstPresent<T>(a: Option<T>, b: Option<T>, c: Option<T>)
    ensures a.Or(b).Or(c) == FirstPresent([a, b, c])
  {
    assert [c][1..] == [];
    assert FirstPresent([c]) == c;
    assert [b, c][1..] == [c];
    assert FirstPresent([b, c]) == b.Or(c);
    assert [a, b, c][1..] == [b, c];
    assert FirstPresent([a, b, c]) == a.Or(b.Or(c));
  }

  /** JavaScript truthiness of an optional string: present and non-empty. */
  predicate Truthy(s: Option<string>) {
    s.Some? && s.value != ""
  }
}
